=== FILE: README.md ===
# Storefront client — a Dafny model of its decision logic

The storefront client lets a customer browse products, buy them against a
balance held by the backend, look at their purchase history and talk to a
scripted support bot; an administrator sees a sales dashboard instead.  The
code is mostly rendering and HTTP plumbing.  This project models the
deterministic rules inside it, as pure functions over immutable records:

* **Support chat** (`Chat`, from `ChatInterface.tsx`): a state
  `{messages, input, minimized, awaiting, pending}` driven by events
  (`SelectProduct`, `Type`, `Send`, `ChooseOption`, `FireTimer`, `Minimize`,
  `Restore`).  Every `setTimeout(…, 1000)` is an entry of the `pending`
  queue. All delays are equal, so `FireTimer` runs the oldest entry.
* **Catalog fetch** (`Catalog`, from `fetchProducts` in `ProductList.tsx`):
  how the endpoint is chosen, the status / content-type / JSON checks, how
  purchase records are unwrapped, and the `products` / `loading` / `error` slots.
* **Purchase and balance reconciliation** (`Purchase`, from `handlePurchase`):
  the order body, the error alert, `newBalance` against the fallback balance
  fetch, and the catalog refresh.  The result is a trace of effects: requests,
  balance reports to the parent view, and alerts.
* **Login role** (`Login`): the role is `admin` exactly when the e-mail
  contains `admin`.
* **Session** (`Session`, from `App.tsx`): building the user record, logout,
  the balance slot, the balance fetch after sign-in, and which screen shows.
* **Base URL** (`ApiUrl`, from `src/utils/api.ts`): the first matching rule wins.

Supporting modules: `Text` (JavaScript's `includes`, `trim`, `split('@')[0]`,
decimal rendering, each with a reference definition and a lemma tying them
together), `Uri` (`encodeURIComponent` with a decoder and the round-trip
proof), `Http` (abstract replies, routes, effects), `Types` (the records) and
`Wrappers` (`Option`).

Network replies are parameters (`Http.Reply`): a transport failure with its
message, or a response with `ok`, status, content type and a JSON body that
either parses or fails.  Prices and balances are opaque (`Types.Amount`),
because the client does no arithmetic on them.

Behaviour of the code worth knowing:

* Purchase records without an embedded `Product` are kept as absent entries,
  not dropped, so the list keeps its length (`Catalog.Embedded`). The render
  then throws while reading `product.id` of such an entry, so the list shows
  nothing usable (`Catalog.View` gives `Crashed`).
* The error text is tested for truthiness, so an empty error message shows
  the grid instead of an error (`Catalog.View`).
* Selecting a product does not clear the conversation and does not post a
  line. It opens the window, prefills the input with a help request and
  re-enables typing. The user's send then schedules the options prompt.
* When the fallback balance fetch throws (transport failure, or an ok reply
  whose JSON does not parse), `handlePurchase` jumps to its `catch`: there is no
  catalog refresh and no success alert, only the error alert.  A non-ok balance
  reply is ignored, and the refresh and success alert still happen.
* `fetchProducts` reads the raw build setting `VITE_API_URL`, which renders as
  `undefined` when unset. The top-level balance fetch uses the fixed
  `http://localhost:3000`.  `getApiUrl` is not called by these components.
* The history path escapes the e-mail with `encodeURIComponent`. Both balance
  paths insert it as it is.
* The catalog is fetched again when the view mode changes, not when the user
  changes. The list is re-mounted after a new sign-in anyway.

## Model

| member | source | states |
|---|---|---|
| Text.IncludesIffOccurs | src/components/Login.tsx:15 | `includes` is true exactly when the phrase occurs at some position (both directions) |
| Text.TrimEmptyIffBlank | src/components/ChatInterface.tsx:79 | `trim()` gives the empty string exactly when every character is ECMAScript white space |
| Text.Lower | src/components/ChatInterface.tsx:92 | `toLowerCase` on ASCII: same length, each character folded on its own |
| Text.LowerFolds | src/components/ChatInterface.tsx:92 | after folding no capital letter is left, and exactly the non-capital characters are kept |
| Text.BeforeFirst | src/App.tsx:33 | `split('@')[0]` is a prefix of the e-mail, holds no `@`, and stops right at the first `@` |
| Text.DecimalRoundTrip | src/components/ProductList.tsx:48 | the status rendered in the HTTP error message is all digits and reads back as the status |
| Uri.EncodeUriComponent | src/components/ProductList.tsx:36 | the escaped e-mail holds no `/`, `?` or `#`, so it stays one path segment |
| Uri.DecodeEncode | src/components/ProductList.tsx:36 | decoding the escaped e-mail gives the e-mail back |
| Uri.EncodeInjective | src/components/ProductList.tsx:36 | different e-mails give different history paths |
| Http.Path | src/components/ProductList.tsx:36-37 | every path the client fetches starts with `/api/` |
| Http.PathCarriesEmail | src/components/ProductList.tsx:36 | the history path holds the e-mail escaped so that it decodes back; the balance path holds it verbatim between fixed text |
| Http.PathInjective | src/components/ProductList.tsx:36-37 | different routes are fetched at different paths |
| ApiUrl.GetApiUrl | src/utils/api.ts:1-12 | a non-empty setting wins; otherwise a hostname containing `railway.app` gives the production URL; otherwise the local URL; never anything else |
| ApiUrl.SettingOverridesHost | src/utils/api.ts:2-3 | with a non-empty setting the hostname plays no part |
| ApiUrl.EmptySettingFallsThrough | src/utils/api.ts:3 | an empty setting behaves like an absent one |
| ApiUrl.RailwayHostExample | src/utils/api.ts:6-8 | a railway.app hostname gives the production backend |
| Login.RoleOf | src/components/Login.tsx:15 | role is admin exactly when `admin` occurs anywhere in the e-mail, customer otherwise |
| Login.Submit | src/components/Login.tsx:12-17 | `onLogin` receives the e-mail unchanged and the role derived from it alone |
| Login.AdminExample | src/components/Login.tsx:31 | the sample admin account gets the admin role |
| Login.MarkerAnywhere | src/components/Login.tsx:15 | the marker counts in the middle of the address too |
| Login.NoMarker | src/components/Login.tsx:15 | an address with no `a` followed by `d` is a customer |
| Login.CustomerExample | src/components/Login.tsx:38 | the sample customer account gets the customer role |
| Login.UpperCaseIsCustomer | src/components/Login.tsx:15 | the match is case-sensitive: `ADMIN@x.com` is a customer |
| Catalog.ListingRoute | src/components/ProductList.tsx:35-37 | history mode asks for the customer's purchases, catalog mode for `/api/products` |
| Catalog.Rejection | src/components/ProductList.tsx:41-62 | a reply is turned down exactly when it is not usable; transport, status, content-type and JSON failures give their messages, which are non-empty whenever the transport and parser name their failure |
| Catalog.Embedded | src/components/ProductList.tsx:59 | history records map to their embedded product one for one: same length, nothing dropped |
| Catalog.Listed | src/components/ProductList.tsx:59 | a catalog body is stored element for element |
| Catalog.FetchProducts | src/components/ProductList.tsx:30-66 | one request to the chosen endpoint; loading ends false; a usable reply replaces the list and keeps `error`; any failure keeps the list and sets `error`; a set error is never cleared |
| Catalog.OnlyChosenEndpointMatters | src/components/ProductList.tsx:35-41 | the answer of the endpoint not chosen has no effect |
| Catalog.View | src/components/ProductList.tsx:109-134 | loading shows the spinner; a non-empty error shows as the error; an absent product makes the render throw; otherwise the grid holds exactly the stored products, with purchase buttons only in catalog mode |
| Catalog.ErrorIsSticky | src/components/ProductList.tsx:62 | `error` is never cleared: once set, it stays set over any run of fetches |
| Catalog.ErrorStaysShown | src/components/ProductList.tsx:110 | once a non-empty error is stored, every later fetch leaves the list showing an error in both modes, provided failures carry a message |
| Catalog.FirstRenderLoads | src/components/ProductList.tsx:20-22 | the initial state shows the spinner in either mode |
| Catalog.MountShowsCatalog | src/components/ProductList.tsx:26-28 | the mount fetch in catalog mode, answered with a usable catalog, shows exactly that catalog, each product purchasable |
| Catalog.CatalogFetchRenders | src/components/ProductList.tsx:109-134 | a successful catalog fetch with no error shown renders exactly the products received, each purchasable |
| Purchase.Order | src/components/ProductList.tsx:75-79 | the order is the product id, the user's e-mail and quantity 1 |
| Purchase.ServerMessage | src/components/ProductList.tsx:84 | a non-empty server message is shown, an empty or absent one gives the fallback text |
| Purchase.FailureText | src/components/ProductList.tsx:81-106 | a refused purchase alerts the transport's or parser's error as it is, or, for a non-ok reply with a readable body, the server message with its fallback |
| Purchase.BalanceError | src/components/ProductList.tsx:93-96 | the balance fallback throws exactly on a transport failure or an ok reply whose JSON does not parse, with that error's message; a non-ok reply is ignored |
| Purchase.Finish | src/components/ProductList.tsx:100-103 | the refresh comes after everything before it and right before the success alert |
| Purchase.WithNewBalance | src/components/ProductList.tsx:89-90 | a numeric `newBalance` is reported once, as it is, with no balance fetch, and the list is refreshed once |
| Purchase.WithBalanceFetch | src/components/ProductList.tsx:91-98 | otherwise one balance fetch; reported only when ok and readable; a non-throwing fetch gives exactly the trace order, balance fetch, the report if any, one refresh, the success alert, so exactly one order and one alert; a throwing fetch ends with its error alert and no refresh |
| Purchase.BalanceFailed | src/components/ProductList.tsx:93-106 | a balance fetch that throws ends with that error's alert: nothing reported, no refresh, the list unchanged |
| Purchase.FinishUnreported | src/components/ProductList.tsx:93-103 | a non-ok balance reply reports nothing; the list is refetched once and success is alerted |
| Purchase.FinishReported | src/components/ProductList.tsx:93-103 | a readable balance is reported once, then one refetch and the success alert |
| Purchase.HandlePurchase | src/components/ProductList.tsx:68-107 | the order goes first and an alert comes last; a refused purchase reports nothing, fetches nothing more and keeps the list; the reported balance is `newBalance` or the fetched one; exactly one refresh, after every report, when the balance step did not throw; a run that reaches the refresh has exactly the trace order, the balance fetch only without `newBalance`, the report if any, one refresh, the success alert, so exactly one order and one alert; when it throws, the run ends with that error's alert and never the success text |
| Purchase.Accepting | src/components/ProductList.tsx:87-103 | an accepted order is followed by the balance step, then, unless it threw, exactly the success trace with one order, one refresh and one alert |
| Session.NewUser | src/App.tsx:29-36 | id and email are the e-mail, role passed through, name the part before the first `@` (the whole e-mail if none) |
| Session.HandleLogin | src/App.tsx:29-37 | login writes the user slot only |
| Session.HandleLogout | src/App.tsx:39-44 | logout resets user, balance, view mode and selection, whatever they held |
| Session.PurchaseComplete | src/App.tsx:51-53 | the balance becomes exactly the reported value and no other slot changes |
| Session.FetchBalance | src/App.tsx:15-27 | only a signed-in customer fetches; only an ok readable reply changes the balance, to that value; nothing else changes |
| Session.SignIn | src/App.tsx:46-49 | signing in stores the derived user; an admin issues no balance request, a customer exactly one |
| Session.ApplyReports | src/components/ProductList.tsx:90-96 | the reported amounts reach the balance slot in order, so the last one wins |
| Session.Buy | src/App.tsx:112-118 | a refused purchase leaves the session as it was; otherwise the balance is the reported value or unchanged |
| Session.Render | src/App.tsx:55-123 | no user shows the login; admin the dashboard, with no chat or balance; customer the list, the chat for the selected product and the balance slot |
| Session.BalanceShownOnlyToCustomers | src/App.tsx:88 | a balance is on screen exactly for a customer whose balance is set |
| Session.LogoutThenSignIn | src/App.tsx:39-44 | after logout the login screen shows and the next sign-in starts in catalog mode with nothing selected |
| Session.AdminNameExample | src/App.tsx:33 | `admin@example.com` is displayed as `admin` |
| Session.AdminSignInExample | src/App.tsx:15-16 | the sample admin reaches the dashboard without a balance request |
| Chat.ReplyText | src/components/ChatInterface.tsx:70 | the answer to an option quotes the option |
| Chat.Prefill | src/components/ChatInterface.tsx:18 | the prefilled request is never blank and always contains the trigger phrase once lower-cased |
| Chat.Mount | src/components/ChatInterface.tsx:10-33 | the first state holds only the greeting, open, not awaiting, nothing scheduled |
| Chat.OnSelectProduct | src/components/ChatInterface.tsx:15-21 | selection opens the window, prefills the input, re-enables typing and keeps history and timers |
| Chat.OnType | src/components/ChatInterface.tsx:163-167 | typing reaches the input only while it is enabled and visible |
| Chat.Scheduled | src/components/ChatInterface.tsx:92-94 | the options prompt is scheduled exactly when the lower-cased text contains the trigger |
| Chat.IsEmptyAfterTrim | src/components/ChatInterface.tsx:79 | the send guard holds exactly for all-white-space input |
| Chat.OnSend | src/components/ChatInterface.tsx:78-95 | blocked or blank sends change nothing; otherwise one user line with the untrimmed text, input cleared, prompt scheduled iff the trigger occurs |
| Chat.Posted | src/components/ChatInterface.tsx:87-94 | the untrimmed text is appended, the input cleared, and the options prompt scheduled exactly when the trigger occurs |
| Chat.OnChooseOption | src/components/ChatInterface.tsx:55-76 | an offered option appends one user line with its text, stops awaiting, and schedules exactly one answer for it |
| Chat.OnFireTimer | src/components/ChatInterface.tsx:35-53 | the oldest timer runs: the prompt appends the four options and starts awaiting; an answer appends the quoted reply |
| Chat.Step | src/components/ChatInterface.tsx:164-171 | every event keeps earlier messages as a prefix and adds at most one; typing and sending are inert while awaiting |
| Chat.RunAppendOnly | src/components/ChatInterface.tsx:51-88 | no sequence of events removes or reorders a message |
| Chat.MountEstablishes | src/components/ChatInterface.tsx:25-32 | the first state satisfies the chat invariant |
| Chat.StepPreserves | src/components/ChatInterface.tsx:36-48 | every option list shown is the fixed four, and every pending answer is for one of them |
| Chat.ChoosePreserves | src/components/ChatInterface.tsx:55-76 | clicking an offered option schedules an answer only for one of the fixed four |
| Chat.FirePreserves | src/components/ChatInterface.tsx:35-53 | a fired timer shows only the fixed option list and drops only its own entry |
| Chat.SendPreserves | src/components/ChatInterface.tsx:78-95 | a send adds a line without options and schedules only the options prompt |
| Chat.FireShowsOptions | src/components/ChatInterface.tsx:35-53 | the scheduled prompt appends the options message and locks the input |
| Chat.RunPreserves | src/components/ChatInterface.tsx:36-48 | the invariant holds after any sequence of events |
| Chat.SelectThenSend | src/components/ChatInterface.tsx:15-21 | selecting a product and sending adds exactly the prefilled line and schedules the prompt |
| Chat.OptionsRoundTrip | src/components/ChatInterface.tsx:35-75 | the prompt blocks sending; a click adds the option line and, one timer later, its answer |
| Chat.SupportScenario | src/components/ChatInterface.tsx:15-52 | select, send and wait give greeting, request and the options prompt, now awaiting |

## Left out

- `src/components/AdminDashboard.tsx`: presentational only, built on a charting library, relative-time formatting and locale currency formatting.
- `src/services/api.ts`: a thin HTTP wrapper that the modelled components do not import. `vite.config.ts` is build tooling.
- Rendering, CSS and icons. `console` logging. Reading `response.text()` on an error reply.
- Real `fetch` and JSON parsing: replies are abstract values. JSON bodies that are not arrays are not modelled. Neither is a purchase `message` that is not a string, or a balance reply without a `balance` field, which would store `undefined`.
- Wall-clock timing: only the order and count of timers are kept. Timers that fire after unmount and requests still in flight after logout are not modelled, and neither are two overlapping purchases.
- Overlapping `fetchProducts` calls: a mode toggle, or a purchase refresh, while an earlier listing fetch is still in flight. The effect has no cleanup or abort, so in the code the last reply to arrive wins, whichever mode it was for, and the first `finally` to run clears `loading` while the other fetch is still pending. `Catalog.Refresh` and `Purchase.HandlePurchase` treat each fetch as one atomic step.
- Message ids from `Date.now()` and timestamps: omitted.
- Chat.OnSelectProduct: models the effect when the product prop changes. React compares by object identity, which value semantics cannot express, so reselecting the same object, which fires nothing, is not modelled.
- Chat.Scheduled: `toLowerCase` is modelled as ASCII folding. The only non-ASCII characters whose lower-case form contains ASCII are U+0130 and U+212A, giving `i` and `k`, and neither letter is in the trigger phrase. So the containment test comes out the same.
- Catalog.ErrorStaysShown: holds only when transport and parser failures carry a non-empty message. An empty one is falsy, and `Catalog.View` then shows the grid again.
- Catalog.View: `Crashed` stands for the exception thrown while rendering an absent product. What React then does with it (unmounting the tree, an error boundary) is not modelled.
- Browser form validation (`required`, `type="email"`) before the login handler runs.
- Locale number formatting of prices and balances.
- UTF-16 strings: characters are Unicode scalar values, so `encodeURIComponent`'s error on a lone surrogate cannot arise.

=== FILE: api_url.dfy ===
/** Backend base-URL resolution: the first rule that applies wins. */
module ApiUrl {
  import opened Wrappers
  import Text

  const ProductionUrl := "https://serverchatbotibmec-production.up.railway.app"
  const LocalUrl := "http://localhost:3000"
  const ProductionHost := "railway.app"

  /** A build-time setting counts only when it is defined and non-empty. */
  predicate Truthy(setting: Option<string>) {
    setting.Some? && setting.value != ""
  }

  function GetApiUrl(envUrl: Option<string>, hostname: string): (r: string)
    ensures Truthy(envUrl) ==> r == envUrl.value
    ensures !Truthy(envUrl) && (exists i :: Text.OccursAt(hostname, ProductionHost, i)) ==> r == ProductionUrl
    ensures !Truthy(envUrl) && !(exists i :: Text.OccursAt(hostname, ProductionHost, i)) ==> r == LocalUrl
    ensures r in {ProductionUrl, LocalUrl} || (envUrl.Some? && r == envUrl.value)
  {
    Text.IncludesIffOccurs(hostname, ProductionHost);
    if Truthy(envUrl) then envUrl.value
    else if Text.Includes(hostname, ProductionHost) then ProductionUrl
    else LocalUrl
  }

  /** The hostname is never consulted when the setting is present. */
  lemma SettingOverridesHost(envUrl: string, host1: string, host2: string)
    requires envUrl != ""
    ensures GetApiUrl(Some(envUrl), host1) == GetApiUrl(Some(envUrl), host2) == envUrl
  {
  }

  /** An empty setting behaves exactly like an absent one. */
  lemma EmptySettingFallsThrough(hostname: string)
    ensures GetApiUrl(Some(""), hostname) == GetApiUrl(None, hostname)
  {
  }

  lemma RailwayHostExample()
    ensures GetApiUrl(None, "myshop.up.railway.app") == ProductionUrl
  {
  }
}

=== FILE: catalog.dfy ===
/**
 * The product list's `fetchProducts`: choose the endpoint from the view mode,
 * check status and content type, unwrap purchase records, and record the
 * outcome in the list state.
 */
module Catalog {
  import opened Wrappers
  import opened Types
  import opened Http
  import Text

  /** The three state slots of the product list. */
  datatype ListState = ListState(products: seq<Option<Product>>, loading: bool, error: Option<string>)

  /** The `useState` initial values. */
  const Initial := ListState([], true, None)

  /** The backend's answer for each listing endpoint at the time of a fetch. */
  datatype Server = Server(catalog: Reply<seq<Product>>, history: Reply<seq<PurchaseRecord>>)

  datatype Fetched = Fetched(state: ListState, effects: seq<Effect>)

  const JsonType := "application/json"
  const HttpErrorPrefix := "HTTP error! status: "
  const BadTypePrefix := "Tipo de conteúdo inválido: "

  function ListingRoute(showPurchased: bool, email: string): (r: Route)
    ensures IsListingRoute(r)
    ensures showPurchased ==> r == CustomerPurchasesRoute(email)
    ensures !showPurchased ==> r == ProductsRoute
  {
    if showPurchased then CustomerPurchasesRoute(email) else ProductsRoute
  }

  /** The listing request; the base is the raw build setting, not the resolved URL. */
  function ListingRequest(envUrl: Option<string>, showPurchased: bool, email: string): Request {
    Get(TemplateText(envUrl), ListingRoute(showPurchased, email))
  }

  /** The content type the client accepts: one mentioning `application/json`. */
  ghost predicate JsonContent(contentType: Option<string>) {
    contentType.Some? && exists i :: Text.OccursAt(contentType.value, JsonType, i)
  }

  /** A reply whose JSON body the client goes on to use. */
  ghost predicate Usable<T>(reply: Reply<T>) {
    reply.Response? && reply.ok && JsonContent(reply.contentType) && reply.body.Json?
  }

  /** The transport and the JSON parser, if they fail, say why in a non-empty
      message. */
  predicate NamedFailure<T>(reply: Reply<T>) {
    && (reply.NetworkFailure? ==> reply.reason != "")
    && (reply.Response? && reply.body.Unparseable? ==> reply.body.reason != "")
  }

  /** The message stored in `error` when a reply is turned down, checked in
      the order the client checks: transport, status, content type, JSON. */
  function Rejection<T>(reply: Reply<T>): (r: Option<string>)
    ensures r.None? <==> Usable(reply)
    ensures reply.NetworkFailure? ==> r == Some(reply.reason)
    ensures reply.Response? && !reply.ok ==> r == Some(HttpErrorPrefix + Text.Decimal(reply.status))
    ensures reply.Response? && reply.ok && !JsonContent(reply.contentType) ==>
      r == Some(BadTypePrefix + reply.contentType.ValueOr("null"))
    ensures reply.Response? && reply.ok && JsonContent(reply.contentType) && reply.body.Unparseable? ==>
      r == Some(reply.body.reason)
    // only an empty transport or parser message gives an empty error
    ensures NamedFailure(reply) && r.Some? ==> r.value != ""
  {
    match reply
    case NetworkFailure(reason) => Some(reason)
    case Response(ok, status, contentType, body) =>
      if !ok then Some(HttpErrorPrefix + Text.Decimal(status))
      else if contentType.None? then Some(BadTypePrefix + "null")
      else
        Text.IncludesIffOccurs(contentType.value, JsonType);
        if !Text.Includes(contentType.value, JsonType) then Some(BadTypePrefix + contentType.value)
        else if body.Unparseable? then Some(body.reason)
        else None
  }

  /** `data.map(p => p.Product)`: one entry per record, absent products kept. */
  function Embedded(records: seq<PurchaseRecord>): (r: seq<Option<Product>>)
    ensures |r| == |records|
    ensures forall i :: 0 <= i < |r| ==> r[i] == records[i].product
  {
    if records == [] then [] else [records[0].product] + Embedded(records[1..])
  }

  /** The catalog body is stored as it is. */
  function Listed(products: seq<Product>): (r: seq<Option<Product>>)
    ensures |r| == |products|
    ensures forall i :: 0 <= i < |r| ==> r[i] == Some(products[i])
  {
    if products == [] then [] else [Some(products[0])] + Listed(products[1..])
  }

  function FetchProducts(st: ListState, showPurchased: bool, email: string, envUrl: Option<string>,
                         server: Server): (r: Fetched)
    ensures r.effects == [Fetch(ListingRequest(envUrl, showPurchased, email))]
    ensures !r.state.loading
    // a stored error survives every later fetch
    ensures st.error.Some? ==> r.state.error.Some?
    ensures !showPurchased && Usable(server.catalog) ==>
      r.state.products == Listed(server.catalog.body.value) && r.state.error == st.error
    ensures showPurchased && Usable(server.history) ==>
      && |r.state.products| == |server.history.body.value|
      && (forall i :: 0 <= i < |r.state.products| ==> r.state.products[i] == server.history.body.value[i].product)
      && r.state.error == st.error
    ensures !showPurchased && !Usable(server.catalog) ==>
      r.state.products == st.products && r.state.error == Rejection(server.catalog)
    ensures showPurchased && !Usable(server.history) ==>
      r.state.products == st.products && r.state.error == Rejection(server.history)
  {
    var effects := [Fetch(ListingRequest(envUrl, showPurchased, email))];
    var loading := st.(loading := true);
    if showPurchased then
      match Rejection(server.history)
      case Some(message) => Fetched(loading.(error := Some(message), loading := false), effects)
      case None => Fetched(loading.(products := Embedded(server.history.body.value), loading := false), effects)
    else
      match Rejection(server.catalog)
      case Some(message) => Fetched(loading.(error := Some(message), loading := false), effects)
      case None => Fetched(loading.(products := Listed(server.catalog.body.value), loading := false), effects)
  }

  /** The reply for the endpoint not chosen plays no part. */
  lemma OnlyChosenEndpointMatters(st: ListState, showPurchased: bool, email: string, envUrl: Option<string>,
                                  catalog: Reply<seq<Product>>, history: Reply<seq<PurchaseRecord>>,
                                  other: Server)
    ensures showPurchased ==>
      FetchProducts(st, true, email, envUrl, Server(catalog, history)) ==
      FetchProducts(st, true, email, envUrl, other.(history := history))
    ensures !showPurchased ==>
      FetchProducts(st, false, email, envUrl, Server(catalog, history)) ==
      FetchProducts(st, false, email, envUrl, other.(catalog := catalog))
  {
  }

  /** What the product list shows.  `Crashed` is the render throwing while
      reading `product.id` of a record that carried no product. */
  datatype ListView = Loading | Failed(message: string) | Crashed | Grid(items: seq<Product>, purchasable: bool)

  /** `if (error)`: an empty message is falsy and does not show. */
  predicate Shown(error: Option<string>) {
    error.Some? && error.value != ""
  }

  /** Every entry of the list has a product. */
  predicate Complete(entries: seq<Option<Product>>) {
    forall i :: 0 <= i < |entries| ==> entries[i].Some?
  }

  function Unwrapped(entries: seq<Option<Product>>): (ps: seq<Product>)
    requires Complete(entries)
    ensures |ps| == |entries|
    ensures forall i :: 0 <= i < |ps| ==> entries[i] == Some(ps[i])
  {
    seq(|entries|, i requires 0 <= i < |entries| => entries[i].value)
  }

  function View(st: ListState, showPurchased: bool): (v: ListView)
    ensures v.Loading? <==> st.loading
    ensures v.Failed? <==> !st.loading && Shown(st.error)
    ensures v.Failed? ==> v.message == st.error.value
    ensures v.Crashed? <==> !st.loading && !Shown(st.error) && !Complete(st.products)
    ensures v.Grid? ==>
      && |v.items| == |st.products|
      && (forall i :: 0 <= i < |v.items| ==> st.products[i] == Some(v.items[i]))
      && (v.purchasable <==> !showPurchased)
  {
    if st.loading then Loading
    else if Shown(st.error) then Failed(st.error.value)
    else if !Complete(st.products) then Crashed
    else Grid(Unwrapped(st.products), !showPurchased)
  }

  /** The first render, before the mount fetch answers, shows the spinner in
      either mode. */
  lemma FirstRenderLoads(showPurchased: bool)
    ensures View(Initial, showPurchased) == Loading
  {
  }

  /** The mount fetch in catalog mode, answered with a usable catalog, shows
      exactly that catalog, each product purchasable. */
  lemma MountShowsCatalog(email: string, envUrl: Option<string>, server: Server)
    requires Usable(server.catalog)
    ensures var v := View(FetchProducts(Initial, false, email, envUrl, server).state, false);
      v.Grid? && v.items == server.catalog.body.value && v.purchasable
  {
    CatalogFetchRenders(Initial, email, envUrl, server);
  }

  /** A catalog fetch that succeeds, with no error shown before, renders a
      grid of exactly the products received, each with its buy button. */
  lemma CatalogFetchRenders(st: ListState, email: string, envUrl: Option<string>, server: Server)
    requires Usable(server.catalog) && !Shown(st.error)
    ensures var v := View(FetchProducts(st, false, email, envUrl, server).state, false);
      v.Grid? && v.items == server.catalog.body.value && v.purchasable
  {
    var r := FetchProducts(st, false, email, envUrl, server).state;
    var v := View(r, false);
    assert Complete(r.products);
    assert v.items == server.catalog.body.value;
  }

  /** A run of fetches, each with its own view mode and backend answers. */
  function Refresh(st: ListState, email: string, envUrl: Option<string>, fetches: seq<(bool, Server)>): ListState
    decreases |fetches|
  {
    if fetches == [] then st
    else Refresh(FetchProducts(st, fetches[0].0, email, envUrl, fetches[0].1).state, email, envUrl, fetches[1..])
  }

  /** `error` is never cleared: once set, it stays set over any run of fetches. */
  lemma {:induction false} ErrorIsSticky(st: ListState, email: string, envUrl: Option<string>,
                                         fetches: seq<(bool, Server)>)
    requires st.error.Some?
    ensures Refresh(st, email, envUrl, fetches).error.Some?
    decreases |fetches|
  {
    if fetches != [] {
      var next := FetchProducts(st, fetches[0].0, email, envUrl, fetches[0].1).state;
      ErrorIsSticky(next, email, envUrl, fetches[1..]);
    }
  }

  /** Once a shown error is stored, every later fetch leaves the list showing
      an error, in both modes, as long as failures come with a message. */
  lemma {:induction false} ErrorStaysShown(st: ListState, email: string, envUrl: Option<string>,
                                           fetches: seq<(bool, Server)>)
    requires Shown(st.error)
    requires fetches != []
    requires forall k :: 0 <= k < |fetches| ==>
      NamedFailure(fetches[k].1.catalog) && NamedFailure(fetches[k].1.history)
    ensures View(Refresh(st, email, envUrl, fetches), false).Failed?
    ensures View(Refresh(st, email, envUrl, fetches), true).Failed?
    decreases |fetches|
  {
    var next := FetchProducts(st, fetches[0].0, email, envUrl, fetches[0].1).state;
    assert NamedFailure(fetches[0].1.catalog) && NamedFailure(fetches[0].1.history);
    assert Shown(next.error);
    if |fetches| > 1 {
      ErrorStaysShown(next, email, envUrl, fetches[1..]);
    }
  }

}

=== FILE: chat.dfy ===
/**
 * The scripted support chat.  Each `setTimeout(…, 1000)` becomes an entry of
 * `pending`; all delays are equal, so callbacks run in the order they were
 * scheduled, and `FireTimer` runs the oldest one.
 */
module Chat {
  import opened Wrappers
  import opened Types
  import Text

  const Greeting := "Olá! Como posso ajudar você hoje?"
  const OptionsPrompt := "Por favor, selecione uma opção:"
  const SupportOptions: seq<string> := ["Como usar o produto", "Problemas técnicos", "Garantia", "Troca ou devolução"]
  /** The phrase that makes a sent message schedule the options prompt. */
  const Trigger := "ajuda sobre o produto"
  /** "Gostaria de uma ajuda sobre o produto ", written around the trigger. */
  const PrefillLead := "Gostaria de uma " + Trigger + " "
  const ReplyLead := "Entendi que você precisa de ajuda com "
  const ReplyTail := ". Um de nossos especialistas entrará em contato em breve para te ajudar com isso."

  /** A scheduled bot action. */
  datatype Timer = ShowOptions | AnswerOption(option: string)

  datatype State = State(messages: seq<ChatMessage>, input: string, minimized: bool, awaiting: bool, pending: seq<Timer>)

  /** What can happen to the chat: the selected product changes, the user
      types, presses send, clicks an option, minimizes or reopens the window,
      or the oldest timer fires. */
  datatype Event =
    | SelectProduct(name: string)
    | Type(text: string)
    | Send
    | ChooseOption(option: string)
    | FireTimer
    | Minimize
    | Restore

  function UserLine(text: string): ChatMessage {
    ChatMessage(text, FromUser, None)
  }

  function BotLine(text: string): ChatMessage {
    ChatMessage(text, FromBot, None)
  }

  const GreetingLine := BotLine(Greeting)
  const OptionsLine := ChatMessage(OptionsPrompt, FromBot, Some(SupportOptions))

  /** The sent text, lower-cased, mentions the trigger phrase. */
  ghost predicate AsksForHelp(input: string) {
    exists i :: Text.OccursAt(Text.Lower(input), Trigger, i)
  }

  function Quoted(option: string): string {
    "\"" + option + "\""
  }

  /** The bot's answer to a chosen option quotes the option. */
  function ReplyText(option: string): (r: string)
    ensures exists i :: Text.OccursAt(r, Quoted(option), i)
  {
    Text.OccursInMiddle(ReplyLead, Quoted(option), ReplyTail);
    ReplyLead + Quoted(option) + ReplyTail
  }

  /** The input a product selection puts in the box: never blank, and always
      a help request. */
  function Prefill(name: string): (r: string)
    ensures !Text.IsBlank(r)
    ensures AsksForHelp(r)
  {
    var head, rest := "Gostaria de uma ", " " + name;
    var r := PrefillLead + name;
    assert r == head + Trigger + rest;
    assert r[0] == 'G' && !Text.IsWhiteSpace(r[0]);
    Text.LowerIdentity(Trigger);
    Text.LowerAppend(head, Trigger);
    Text.LowerAppend(head + Trigger, rest);
    Text.OccursInMiddle(Text.Lower(head), Trigger, Text.Lower(rest));
    r
  }

  /** The component's first render: both effects have run, the greeting is the
      only message, and a product already chosen has filled the input. */
  function Mount(product: Option<string>): (s: State)
    ensures s.messages == [GreetingLine]
    ensures !s.minimized && !s.awaiting && s.pending == []
    ensures s.input == (if product.Some? then Prefill(product.value) else "")
  {
    State([GreetingLine], if product.Some? then Prefill(product.value) else "", false, false, [])
  }

  /** The send button and the Enter key work only while the input is enabled
      and the window is open. */
  predicate CanSend(s: State) {
    !s.awaiting && !s.minimized
  }

  /** An option button is on screen for `option`. */
  predicate Offered(messages: seq<ChatMessage>, option: string) {
    exists i :: 0 <= i < |messages| && messages[i].options.Some? && option in messages[i].options.value
  }

  /** A new product was selected: open the window, prefill the input, and
      accept typing again; the history stays. */
  function OnSelectProduct(s: State, name: string): (r: State)
    ensures r.messages == s.messages && r.pending == s.pending
    ensures !r.minimized && !r.awaiting && r.input == Prefill(name)
  {
    s.(minimized := false, input := Prefill(name), awaiting := false)
  }

  function OnType(s: State, text: string): (r: State)
    ensures CanSend(s) ==> r == s.(input := text)
    ensures !CanSend(s) ==> r == s
  {
    if CanSend(s) then s.(input := text) else s
  }

  /** The timers a sent text schedules. */
  function Scheduled(input: string): (r: seq<Timer>)
    ensures AsksForHelp(input) ==> r == [ShowOptions]
    ensures !AsksForHelp(input) ==> r == []
  {
    Text.IncludesIffOccurs(Text.Lower(input), Trigger);
    if Text.Includes(Text.Lower(input), Trigger) then [ShowOptions] else []
  }

  /** `!input.trim()`. */
  function IsEmptyAfterTrim(input: string): (r: bool)
    ensures r <==> Text.IsBlank(input)
  {
    Text.TrimEmptyIffBlank(input);
    Text.Trim(input) == []
  }

  /** `handleSend`, behind the disabled-button guard. */
  function OnSend(s: State): (r: State)
    ensures !CanSend(s) ==> r == s
    ensures Text.IsBlank(s.input) ==> r == s
    ensures CanSend(s) && !Text.IsBlank(s.input) ==>
      && r.messages == s.messages + [UserLine(s.input)]
      && r.input == ""
      && r.awaiting == s.awaiting && r.minimized == s.minimized
      && (AsksForHelp(s.input) ==> r.pending == s.pending + [ShowOptions])
      && (!AsksForHelp(s.input) ==> r.pending == s.pending)
  {
    if !CanSend(s) || IsEmptyAfterTrim(s.input) then s
    else Posted(s)
  }

  /** The text is appended, the box cleared, and any prompt scheduled. */
  function Posted(s: State): (r: State)
    ensures r.messages == s.messages + [UserLine(s.input)]
    ensures r.input == "" && r.awaiting == s.awaiting && r.minimized == s.minimized
    ensures AsksForHelp(s.input) ==> r.pending == s.pending + [ShowOptions]
    ensures !AsksForHelp(s.input) ==> r.pending == s.pending
  {
    s.(messages := s.messages + [UserLine(s.input)], input := "", pending := s.pending + Scheduled(s.input))
  }

  /** `handleOptionSelect`, reachable only through a rendered option button. */
  function OnChooseOption(s: State, option: string): (r: State)
    ensures (s.minimized || !Offered(s.messages, option)) ==> r == s
    ensures !s.minimized && Offered(s.messages, option) ==>
      && r.messages == s.messages + [UserLine(option)]
      && !r.awaiting
      && r.pending == s.pending + [AnswerOption(option)]
      && r.input == s.input && r.minimized == s.minimized
  {
    if s.minimized || !Offered(s.messages, option) then s
    else s.(messages := s.messages + [UserLine(option)], awaiting := false,
            pending := s.pending + [AnswerOption(option)])
  }

  /** The oldest scheduled callback runs. */
  function OnFireTimer(s: State): (r: State)
    ensures s.pending == [] ==> r == s
    ensures s.pending != [] ==> r.pending == s.pending[1..] && r.input == s.input && r.minimized == s.minimized
    ensures s.pending != [] && s.pending[0].ShowOptions? ==>
      r.messages == s.messages + [OptionsLine] && r.awaiting
    ensures s.pending != [] && s.pending[0].AnswerOption? ==>
      r.messages == s.messages + [BotLine(ReplyText(s.pending[0].option))] && r.awaiting == s.awaiting
  {
    if s.pending == [] then s
    else
      match s.pending[0]
      case ShowOptions =>
        s.(messages := s.messages + [OptionsLine], awaiting := true, pending := s.pending[1..])
      case AnswerOption(option) =>
        s.(messages := s.messages + [BotLine(ReplyText(option))], pending := s.pending[1..])
  }

  function Step(s: State, e: Event): (r: State)
    // messages are only ever appended, one at a time
    ensures s.messages <= r.messages && |r.messages| <= |s.messages| + 1
    // nothing can be sent or typed while an option is awaited
    ensures s.awaiting && (e.Send? || e.Type?) ==> r == s
  {
    match e
    case SelectProduct(name) => OnSelectProduct(s, name)
    case Type(text) => OnType(s, text)
    case Send => OnSend(s)
    case ChooseOption(option) => OnChooseOption(s, option)
    case FireTimer => OnFireTimer(s)
    case Minimize => s.(minimized := true)
    case Restore => s.(minimized := false)
  }

  function Run(s: State, events: seq<Event>): State
    decreases |events|
  {
    if events == [] then s else Run(Step(s, events[0]), events[1..])
  }

  /** No sequence of events removes or reorders a message. */
  lemma {:induction false} RunAppendOnly(s: State, events: seq<Event>)
    ensures s.messages <= Run(s, events).messages
    ensures |Run(s, events).messages| <= |s.messages| + |events|
    decreases |events|
  {
    if events != [] {
      RunAppendOnly(Step(s, events[0]), events[1..]);
    }
  }

  /** Every option list on screen is the fixed one, and every pending answer
      is for one of its options. */
  ghost predicate Invariant(s: State) {
    && (forall i :: 0 <= i < |s.messages| && s.messages[i].options.Some? ==>
          s.messages[i].options.value == SupportOptions && s.messages[i].sender == FromBot)
    && (forall j :: 0 <= j < |s.pending| && s.pending[j].AnswerOption? ==> s.pending[j].option in SupportOptions)
  }

  lemma MountEstablishes(product: Option<string>)
    ensures Invariant(Mount(product))
  {
  }

  lemma ChoosePreserves(s: State, option: string)
    requires Invariant(s)
    ensures Invariant(OnChooseOption(s, option))
  {
    if !s.minimized && Offered(s.messages, option) {
      var i :| 0 <= i < |s.messages| && s.messages[i].options.Some? && option in s.messages[i].options.value;
      assert option in SupportOptions;
      var r := OnChooseOption(s, option);
      assert r.pending[|s.pending|] == AnswerOption(option);
    }
  }

  lemma FirePreserves(s: State)
    requires Invariant(s)
    ensures Invariant(OnFireTimer(s))
  {
    if s.pending != [] {
      var r := OnFireTimer(s);
      assert forall j :: 0 <= j < |r.pending| ==> r.pending[j] == s.pending[j + 1];
    }
  }

  /** Appending a plain line and options prompts keeps the invariant. */
  lemma AppendPreserves(s: State, r: State, line: ChatMessage, extra: seq<Timer>)
    requires Invariant(s)
    requires line.options.None?
    requires r.messages == s.messages + [line] && r.pending == s.pending + extra
    requires forall j :: 0 <= j < |extra| ==> extra[j] == ShowOptions
    ensures Invariant(r)
  {
  }

  lemma SendPreserves(s: State)
    requires Invariant(s)
    ensures Invariant(OnSend(s))
  {
    if CanSend(s) && !Text.IsBlank(s.input) {
      var r := Posted(s);
      if AsksForHelp(s.input) {
        AppendPreserves(s, r, UserLine(s.input), [ShowOptions]);
      } else {
        AppendPreserves(s, r, UserLine(s.input), []);
      }
    }
  }

  lemma StepPreserves(s: State, e: Event)
    requires Invariant(s)
    ensures Invariant(Step(s, e))
  {
    match e
    case ChooseOption(option) => ChoosePreserves(s, option);
    case FireTimer => FirePreserves(s);
    case Send => SendPreserves(s);
    case _ =>
  }

  lemma {:induction false} RunPreserves(s: State, events: seq<Event>)
    requires Invariant(s)
    ensures Invariant(Run(s, events))
    decreases |events|
  {
    if events != [] {
      StepPreserves(s, events[0]);
      RunPreserves(Step(s, events[0]), events[1..]);
    }
  }

  /** Whatever the chat held, selecting a product and sending the prefilled
      text adds that one line and schedules the options prompt. */
  lemma SelectThenSend(s: State, name: string)
    ensures var r := Step(Step(s, SelectProduct(name)), Send);
      && r.messages == s.messages + [UserLine(Prefill(name))]
      && r.pending == s.pending + [ShowOptions]
      && r.input == "" && !r.minimized && !r.awaiting
  {
  }

  /** The options prompt blocks sending until an option is clicked, and the
      click schedules exactly one answer, which arrives after pending work. */
  lemma OptionsRoundTrip(s: State, option: string)
    requires CanSend(s) && s.pending == [ShowOptions]
    requires option in SupportOptions
    ensures var shown := Step(s, FireTimer);
      && shown.awaiting
      && shown.messages == s.messages + [OptionsLine]
      && |OptionsLine.options.value| == 4
      && Step(shown, Send) == shown
      && var picked := Step(shown, ChooseOption(option));
         && !picked.awaiting
         && picked.messages == shown.messages + [UserLine(option)]
         && picked.pending == [AnswerOption(option)]
         && Step(picked, FireTimer).messages == picked.messages + [BotLine(ReplyText(option))]
  {
    var shown := Step(s, FireTimer);
    assert shown.messages[|s.messages|] == OptionsLine;
    assert Offered(shown.messages, option);
  }

  /** The one scheduled options prompt appears and locks the input. */
  lemma FireShowsOptions(s: State)
    requires s.pending == [ShowOptions]
    ensures var r := Step(s, FireTimer);
      r.messages == s.messages + [OptionsLine] && r.awaiting && r.pending == []
  {
  }

  /** A customer asks for help with a product:
      the greeting, their prefilled request, and then the options prompt. */
  lemma SupportScenario(name: string)
    ensures var s := Step(Step(Step(Mount(None), SelectProduct(name)), Send), FireTimer);
      && s.messages == [GreetingLine, UserLine(Prefill(name)), OptionsLine]
      && s.awaiting && s.pending == []
  {
    var s0 := Mount(None);
    SelectThenSend(s0, name);
    var s2 := Step(Step(s0, SelectProduct(name)), Send);
    FireShowsOptions(s2);
    assert [GreetingLine] + [UserLine(Prefill(name))] + [OptionsLine] == [GreetingLine, UserLine(Prefill(name)), OptionsLine];
  }

}

=== FILE: http.dfy ===
/**
 * The network as the client sees it: each `fetch` is an abstract reply, and
 * everything observable the client does (requests, reports of a new balance
 * to the parent view, `alert` boxes) is recorded as an effect.
 */
module Http {
  import opened Wrappers
  import opened Types
  import Uri

  /** The result of `response.json()`: parsed, or rejected with a reason. */
  datatype Body<T> = Unparseable(reason: string) | Json(value: T)

  /** The result of awaiting one `fetch`. */
  datatype Reply<T> =
    | NetworkFailure(reason: string)
    | Response(ok: bool, status: nat, contentType: Option<string>, body: Body<T>)

  /** Body of `POST /api/purchases`. */
  datatype PurchaseOrder = PurchaseOrder(productId: string, customerId: string, quantity: nat)

  /** Fields of the purchase reply the client reads: `message` on failure,
      `newBalance` (present only when it is a JSON number) on success. */
  datatype PurchaseJson = PurchaseJson(message: Option<string>, newBalance: Option<Amount>)

  /** Reply of the balance endpoint. */
  datatype BalanceJson = BalanceJson(balance: Amount)

  datatype Route =
    | ProductsRoute
    | CustomerPurchasesRoute(customer: string)
    | PurchasesRoute
    | CustomerBalanceRoute(customer: string)

  /** The path each route is fetched at.  Only the purchase history path
      escapes the e-mail; the balance path inserts it verbatim. */
  function Path(route: Route): (p: string)
    ensures "/api/" <= p
  {
    match route
    case ProductsRoute => "/api/products"
    case CustomerPurchasesRoute(email) => "/api/purchases/customer/" + Uri.EncodeUriComponent(email)
    case PurchasesRoute => "/api/purchases"
    case CustomerBalanceRoute(email) => "/api/customers/" + email + "/balance"
  }

  /** The e-mail can be read back from either customer path: the history path
      holds it escaped so that it decodes back, the balance path verbatim
      between fixed text. */
  lemma PathCarriesEmail(route: Route)
    ensures var p := Path(route);
      && (route.CustomerPurchasesRoute? ==>
            |p| >= 24 && p[..24] == "/api/purchases/customer/"
            && Uri.DecodeUriComponent(p[24..]) == Some(route.customer))
      && (route.CustomerBalanceRoute? ==>
            |p| >= 23 && p[..15] == "/api/customers/" && p[15..|p| - 8] == route.customer)
  {
    if route.CustomerPurchasesRoute? {
      var tail := Uri.EncodeUriComponent(route.customer);
      assert Path(route)[24..] == tail;
      Uri.DecodeEncode(route.customer);
    }
  }

  /** The characters that tell the four templates apart. */
  lemma PathShape(r: Route)
    ensures var p := Path(r);
      && (r.ProductsRoute? ==> |p| == 13 && p[5] == 'p' && p[6] == 'r')
      && (r.PurchasesRoute? ==> |p| == 14 && p[5] == 'p' && p[6] == 'u')
      && (r.CustomerPurchasesRoute? ==> |p| >= 24 && p[5] == 'p' && p[6] == 'u')
      && (r.CustomerBalanceRoute? ==> |p| >= 23 && p[5] == 'c')
  {
    match r
    case CustomerPurchasesRoute(email) =>
      var head, tail := "/api/purchases/customer/", Uri.EncodeUriComponent(email);
      assert Path(r) == head + tail;
      HeadOfAppend(head, tail, 5);
      HeadOfAppend(head, tail, 6);
    case CustomerBalanceRoute(email) =>
      var head, tail := "/api/customers/", email + "/balance";
      assert Path(r) == head + tail;
      HeadOfAppend(head, tail, 5);
    case _ =>
  }

  lemma HeadOfAppend(a: string, b: string, k: nat)
    requires k < |a|
    ensures |a + b| >= |a| && (a + b)[k] == a[k]
  {
  }

  /** Different routes are fetched at different paths. */
  lemma PathInjective(a: Route, b: Route)
    requires Path(a) == Path(b)
    ensures a == b
  {
    PathShape(a);
    PathShape(b);
    PathCarriesEmail(a);
    PathCarriesEmail(b);
  }

  /** A request goes to `base` followed by the route's `Path`. */
  datatype Request =
    | Get(base: string, route: Route)
    | Post(base: string, route: Route, order: PurchaseOrder)

  datatype Effect =
    | Fetch(request: Request)
    | ReportBalance(amount: Amount)
    | Alert(text: string)

  /** The value a template literal shows for an optional setting: `undefined`
      renders as the text "undefined". */
  function TemplateText(setting: Option<string>): string {
    match setting
    case Some(s) => s
    case None => "undefined"
  }

  /** The amounts reported to the parent view, in order. */
  function Reports(effects: seq<Effect>): (r: seq<Amount>)
    ensures |r| <= |effects|
  {
    if effects == [] then []
    else (if effects[0].ReportBalance? then [effects[0].amount] else []) + Reports(effects[1..])
  }

  /** How many requests of `effects` go to a route satisfying `kind`. */
  function CountFetches(effects: seq<Effect>, kind: Route -> bool): (n: nat)
    ensures n <= |effects|
  {
    if effects == [] then 0
    else (if effects[0].Fetch? && kind(effects[0].request.route) then 1 else 0) + CountFetches(effects[1..], kind)
  }

  predicate IsBalanceRoute(r: Route) {
    r.CustomerBalanceRoute?
  }

  predicate IsListingRoute(r: Route) {
    r.ProductsRoute? || r.CustomerPurchasesRoute?
  }

  lemma {:induction false} ReportsAppend(a: seq<Effect>, b: seq<Effect>)
    ensures Reports(a + b) == Reports(a) + Reports(b)
  {
    if a != [] {
      ReportsAppend(a[1..], b);
      assert (a + b)[1..] == a[1..] + b;
    } else {
      assert a + b == b;
    }
  }

  lemma {:induction false} CountAppend(a: seq<Effect>, b: seq<Effect>, kind: Route -> bool)
    ensures CountFetches(a + b, kind) == CountFetches(a, kind) + CountFetches(b, kind)
  {
    if a != [] {
      CountAppend(a[1..], b, kind);
      assert (a + b)[1..] == a[1..] + b;
    } else {
      assert a + b == b;
    }
  }
}

=== FILE: login.dfy ===
/** The login form: the role is read off the e-mail text, nothing is checked. */
module Login {
  import opened Types
  import Text

  const AdminMarker := "admin"

  function RoleOf(email: string): (r: Role)
    ensures r == Admin <==> exists i :: Text.OccursAt(email, AdminMarker, i)
    ensures r == Customer <==> !exists i :: Text.OccursAt(email, AdminMarker, i)
  {
    Text.IncludesIffOccurs(email, AdminMarker);
    if Text.Includes(email, AdminMarker) then Admin else Customer
  }

  /** What the form hands to `onLogin`: the e-mail untouched and its role. */
  function Submit(email: string): (r: (string, Role))
    ensures r.0 == email
    ensures r.1 == RoleOf(email)
  {
    (email, RoleOf(email))
  }

  lemma AdminExample()
    ensures RoleOf("admin@example.com") == Admin
  {
  }

  lemma MarkerAnywhere()
    ensures RoleOf("shopadmin2@example.com") == Admin
  {
  }

  /** A text with no `d` right after an `a` cannot contain the marker. */
  lemma NoMarker(email: string)
    requires forall i :: 0 <= i < |email| - 1 ==> !(email[i] == 'a' && email[i + 1] == 'd')
    ensures RoleOf(email) == Customer
  {
    forall i: int
      ensures !Text.OccursAt(email, AdminMarker, i)
    {
      if 0 <= i && i + 5 <= |email| {
        assert email[i..i + 5][0] == email[i] && email[i..i + 5][1] == email[i + 1];
      }
    }
  }

  lemma CustomerExample()
    ensures RoleOf("cliente@example.com") == Customer
  {
    NoMarker("cliente@example.com");
  }

  /** The match is case-sensitive: the same address in capitals is a customer. */
  lemma UpperCaseIsCustomer()
    ensures RoleOf("admin@x.com") == Admin
    ensures RoleOf("ADMIN@x.com") == Customer
  {
    assert Text.OccursAt("admin@x.com", AdminMarker, 0);
    NoMarker("ADMIN@x.com");
  }
}

=== FILE: purchase.dfy ===
/**
 * The product list's `handlePurchase`: submit the order, take the new
 * balance from the reply or fetch it, refresh the list, and tell the user.
 */
module Purchase {
  import opened Wrappers
  import opened Types
  import opened Http
  import Catalog

  const FallbackError := "Erro ao realizar compra"
  const SuccessText := "Compra realizada com sucesso!"

  datatype Purchased = Purchased(list: Catalog.ListState, effects: seq<Effect>)

  /** The order always names the product, the signed-in customer and one unit. */
  function Order(product: Product, email: string): (o: PurchaseOrder)
    ensures o.productId == product.id && o.customerId == email && o.quantity == 1
  {
    PurchaseOrder(product.id, email, 1)
  }

  function OrderRequest(envUrl: Option<string>, product: Product, email: string): Request {
    Post(TemplateText(envUrl), PurchasesRoute, Order(product, email))
  }

  function BalanceRequest(envUrl: Option<string>, email: string): Request {
    Get(TemplateText(envUrl), CustomerBalanceRoute(email))
  }

  /** The purchase went through and its JSON was read. */
  predicate Accepted(reply: Reply<PurchaseJson>) {
    reply.Response? && reply.ok && reply.body.Json?
  }

  /** `errorData.message || fallback`: an empty or absent message gives the fallback. */
  function ServerMessage(message: Option<string>): (m: string)
    ensures m != ""
    ensures message.Some? && message.value != "" ==> m == message.value
    ensures !(message.Some? && message.value != "") ==> m == FallbackError
  {
    if message.Some? && message.value != "" then message.value else FallbackError
  }

  /** The text of the error `alert` when the purchase is not accepted. */
  function FailureText(reply: Reply<PurchaseJson>): (t: string)
    requires !Accepted(reply)
    // the transport's error, or the JSON parser's, is alerted as it is
    ensures reply.NetworkFailure? ==> t == reply.reason
    ensures reply.Response? && reply.body.Unparseable? ==> t == reply.body.reason
    // a refusal with a readable body is alerted with the server's message or the fallback
    ensures reply.Response? && reply.body.Json? ==>
      !reply.ok && t == ServerMessage(reply.body.value.message)
  {
    match reply
    case NetworkFailure(reason) => reason
    case Response(_, _, _, body) =>
      match body
      case Unparseable(reason) => reason
      case Json(data) => ServerMessage(data.message)
  }

  /** The error the balance fallback throws, if it throws: a failed transport,
      or an ok reply whose JSON cannot be read.  A non-ok reply is ignored. */
  function BalanceError(balance: Reply<BalanceJson>): (r: Option<string>)
    ensures r.None? <==> balance.Response? && !(balance.ok && balance.body.Unparseable?)
    ensures balance.NetworkFailure? ==> r == Some(balance.reason)
    ensures balance.Response? && balance.ok && balance.body.Unparseable? ==> r == Some(balance.body.reason)
  {
    match balance
    case NetworkFailure(reason) => Some(reason)
    case Response(ok, _, _, body) => if ok && body.Unparseable? then Some(body.reason) else None
  }

  /** The success path reaches the list refresh: the balance step did not throw. */
  predicate Completes(reply: Reply<PurchaseJson>, balance: Reply<BalanceJson>) {
    && Accepted(reply)
    && (reply.body.value.newBalance.Some? || BalanceError(balance).None?)
  }

  /** The balance handed to the parent view, if any. */
  function Reported(reply: Reply<PurchaseJson>, balance: Reply<BalanceJson>): Option<Amount>
    requires Accepted(reply)
  {
    match reply.body.value.newBalance
    case Some(v) => Some(v)
    case None =>
      if balance.Response? && balance.ok && balance.body.Json? then Some(balance.body.value.balance) else None
  }

  /** Refresh the catalog, then announce success. */
  function Finish(list: Catalog.ListState, envUrl: Option<string>, email: string, head: seq<Effect>,
                  refetch: Catalog.Server): (r: Purchased)
    ensures |r.effects| == |head| + 2
    ensures r.effects[..|head|] == head
    ensures r.effects[|head|] == Fetch(Catalog.ListingRequest(envUrl, false, email))
    ensures r.effects[|head| + 1] == Alert(SuccessText)
    ensures r.list == Catalog.FetchProducts(list, false, email, envUrl, refetch).state
  {
    var fetched := Catalog.FetchProducts(list, false, email, envUrl, refetch);
    Purchased(fetched.state, head + fetched.effects + [Alert(SuccessText)])
  }

  /** The success path's tail: one catalog refresh, after every report, right
      before the success alert. */
  predicate RefreshedOnce(r: Purchased, envUrl: Option<string>, email: string) {
    && |r.effects| >= 2
    && CountFetches(r.effects, IsListingRoute) == 1
    && r.effects[|r.effects| - 2] == Fetch(Catalog.ListingRequest(envUrl, false, email))
    && r.effects[|r.effects| - 1] == Alert(SuccessText)
    && Reports(r.effects[|r.effects| - 2..]) == []
  }

  /** Every effect of a purchase that reaches the refresh, in order: the order,
      the balance request when one was needed, the report when there is one,
      the catalog refresh and the success alert. */
  function SuccessTrace(order: Effect, asked: bool, reported: Option<Amount>, envUrl: Option<string>,
                        email: string): seq<Effect>
  {
    [order]
    + (if asked then [Fetch(BalanceRequest(envUrl, email))] else [])
    + (match reported case Some(v) => [ReportBalance(v)] case None => [])
    + [Fetch(Catalog.ListingRequest(envUrl, false, email)), Alert(SuccessText)]
  }

  /** The reply carried a numeric `newBalance`. */
  function WithNewBalance(list: Catalog.ListState, envUrl: Option<string>, email: string, order: Effect,
                          v: Amount, refetch: Catalog.Server): (r: Purchased)
    requires order.Fetch? && order.request.route == PurchasesRoute
    ensures |r.effects| == 4 && r.effects[0] == order
    ensures r.effects == SuccessTrace(order, false, Some(v), envUrl, email)
    ensures Reports(r.effects) == [v]
    ensures CountFetches(r.effects, IsBalanceRoute) == 0
    ensures RefreshedOnce(r, envUrl, email)
    ensures r.list == Catalog.FetchProducts(list, false, email, envUrl, refetch).state
  {
    var head := [order, ReportBalance(v)];
    var r := Finish(list, envUrl, email, head, refetch);
    FinishCounts(r, head);
    HeadCounts(order, [ReportBalance(v)]);
    OneCounts(ReportBalance(v));
    r
  }

  /** The reply had no numeric `newBalance`: ask the balance endpoint. */
  function WithBalanceFetch(list: Catalog.ListState, envUrl: Option<string>, email: string, order: Effect,
                            balance: Reply<BalanceJson>, refetch: Catalog.Server): (r: Purchased)
    requires order.Fetch? && order.request.route == PurchasesRoute
    ensures |r.effects| >= 3
    ensures r.effects[0] == order && r.effects[1] == Fetch(BalanceRequest(envUrl, email))
    ensures CountFetches(r.effects, IsBalanceRoute) == 1
    ensures balance.Response? && balance.ok && balance.body.Json? ==> Reports(r.effects) == [balance.body.value.balance]
    ensures !(balance.Response? && balance.ok && balance.body.Json?) ==> Reports(r.effects) == []
    // a non-throwing balance step: exactly one order, one balance fetch, at most one report, one refresh, one alert
    ensures BalanceError(balance).None? ==>
      r.effects == SuccessTrace(order, true, if balance.ok && balance.body.Json? then Some(balance.body.value.balance) else None,
                                envUrl, email)
    ensures BalanceError(balance).None? ==>
      RefreshedOnce(r, envUrl, email) && r.list == Catalog.FetchProducts(list, false, email, envUrl, refetch).state
    ensures BalanceError(balance).Some? ==>
      && r.effects == [order, Fetch(BalanceRequest(envUrl, email)), Alert(BalanceError(balance).value)]
      && CountFetches(r.effects, IsListingRoute) == 0
      && r.list == list
  {
    match balance
    case NetworkFailure(reason) => BalanceFailed(list, envUrl, email, order, reason)
    case Response(ok, _, _, body) =>
      if !ok then FinishUnreported(list, envUrl, email, order, refetch)
      else
        match body
        case Unparseable(reason) => BalanceFailed(list, envUrl, email, order, reason)
        case Json(data) => FinishReported(list, envUrl, email, order, data.balance, refetch)
  }

  /** The balance request failed or its body did not parse: alert the error. */
  function BalanceFailed(list: Catalog.ListState, envUrl: Option<string>, email: string, order: Effect,
                         reason: string): (r: Purchased)
    requires order.Fetch? && order.request.route == PurchasesRoute
    ensures r.effects == [order, Fetch(BalanceRequest(envUrl, email)), Alert(reason)]
    ensures r.list == list
    ensures Reports(r.effects) == []
    ensures CountFetches(r.effects, IsBalanceRoute) == 1
    ensures CountFetches(r.effects, IsListingRoute) == 0
  {
    var ask := Fetch(BalanceRequest(envUrl, email));
    AbortCounts(order, ask, reason);
    Purchased(list, [order, ask, Alert(reason)])
  }

  /** The balance request answered without a usable body: refetch and
      announce success without reporting. */
  function FinishUnreported(list: Catalog.ListState, envUrl: Option<string>, email: string, order: Effect,
                            refetch: Catalog.Server): (r: Purchased)
    requires order.Fetch? && order.request.route == PurchasesRoute
    ensures |r.effects| == 4
    ensures r.effects[0] == order && r.effects[1] == Fetch(BalanceRequest(envUrl, email))
    ensures r.effects == SuccessTrace(order, true, None, envUrl, email)
    ensures CountFetches(r.effects, IsBalanceRoute) == 1
    ensures Reports(r.effects) == []
    ensures RefreshedOnce(r, envUrl, email)
    ensures r.list == Catalog.FetchProducts(list, false, email, envUrl, refetch).state
  {
    var ask := Fetch(BalanceRequest(envUrl, email));
    var r := Finish(list, envUrl, email, [order, ask], refetch);
    FinishCounts(r, [order, ask]);
    HeadCounts(order, [ask]);
    OneCounts(ask);
    r
  }

  /** The balance request answered with a balance: report it, then refetch
      and announce success. */
  function FinishReported(list: Catalog.ListState, envUrl: Option<string>, email: string, order: Effect,
                          amount: Amount, refetch: Catalog.Server): (r: Purchased)
    requires order.Fetch? && order.request.route == PurchasesRoute
    ensures |r.effects| == 5
    ensures r.effects[0] == order && r.effects[1] == Fetch(BalanceRequest(envUrl, email))
    ensures r.effects == SuccessTrace(order, true, Some(amount), envUrl, email)
    ensures CountFetches(r.effects, IsBalanceRoute) == 1
    ensures Reports(r.effects) == [amount]
    ensures RefreshedOnce(r, envUrl, email)
    ensures r.list == Catalog.FetchProducts(list, false, email, envUrl, refetch).state
  {
    var ask := Fetch(BalanceRequest(envUrl, email));
    var head := [order, ask, ReportBalance(amount)];
    var r := Finish(list, envUrl, email, head, refetch);
    FinishCounts(r, head);
    HeadCounts(order, [ask, ReportBalance(amount)]);
    TwoCounts(ask, ReportBalance(amount));
    OneCounts(ask);
    OneCounts(ReportBalance(amount));
    r
  }

  /** `handlePurchase(product)` given the answers to its requests.  The refresh
      runs in catalog mode: the purchase button exists only there, and the
      handler keeps the mode of the render that showed it. */
  function HandlePurchase(list: Catalog.ListState, envUrl: Option<string>, email: string, product: Product,
                          reply: Reply<PurchaseJson>, balance: Reply<BalanceJson>,
                          refetch: Catalog.Server): (r: Purchased)
    // the order goes out first, and an alert always closes the run
    ensures |r.effects| >= 2
    ensures r.effects[0] == Fetch(OrderRequest(envUrl, product, email))
    ensures r.effects[|r.effects| - 1].Alert?
    // a refused purchase reports nothing and fetches nothing more
    ensures !Accepted(reply) ==>
      && r.effects == [Fetch(OrderRequest(envUrl, product, email)), Alert(FailureText(reply))]
      && Reports(r.effects) == []
      && CountFetches(r.effects, IsBalanceRoute) == 0
      && CountFetches(r.effects, IsListingRoute) == 0
      && r.list == list
    // a numeric `newBalance` is reported as it is, without a balance fetch
    ensures Accepted(reply) && reply.body.value.newBalance.Some? ==>
      && Reports(r.effects) == [reply.body.value.newBalance.value]
      && CountFetches(r.effects, IsBalanceRoute) == 0
    // otherwise exactly one balance fetch, reported only when it succeeded
    ensures Accepted(reply) && reply.body.value.newBalance.None? ==>
      && CountFetches(r.effects, IsBalanceRoute) == 1
      && r.effects[1] == Fetch(BalanceRequest(envUrl, email))
    ensures Accepted(reply) ==> Reports(r.effects) == (match Reported(reply, balance) case Some(v) => [v] case None => [])
    // the whole trace of a run that reaches the refresh: one order, the balance fetch only when no
    // `newBalance` came back, the report when there is one, one refresh and the success alert
    ensures Completes(reply, balance) ==>
      r.effects == SuccessTrace(Fetch(OrderRequest(envUrl, product, email)), reply.body.value.newBalance.None?,
                                Reported(reply, balance), envUrl, email)
    ensures Completes(reply, balance) ==>
      RefreshedOnce(r, envUrl, email) && r.list == Catalog.FetchProducts(list, false, email, envUrl, refetch).state
    ensures !Completes(reply, balance) ==> CountFetches(r.effects, IsListingRoute) == 0 && r.list == list
    // a throwing balance fetch ends the run with that error's alert, never the success text
    ensures Accepted(reply) && !Completes(reply, balance) ==>
      && BalanceError(balance).Some?
      && r.effects == [Fetch(OrderRequest(envUrl, product, email)), Fetch(BalanceRequest(envUrl, email)),
                       Alert(BalanceError(balance).value)]
  {
    var order := Fetch(OrderRequest(envUrl, product, email));
    if !Accepted(reply) then
      var r := Purchased(list, [order, Alert(FailureText(reply))]);
      assert r.effects[1..][1..] == [];
      r
    else
      Accepting(list, envUrl, email, order, reply, balance, refetch)
  }

  /** The purchase was accepted: report the balance, refresh, announce. */
  function Accepting(list: Catalog.ListState, envUrl: Option<string>, email: string, order: Effect,
                     reply: Reply<PurchaseJson>, balance: Reply<BalanceJson>,
                     refetch: Catalog.Server): (r: Purchased)
    requires Accepted(reply)
    requires order.Fetch? && order.request.route == PurchasesRoute
    ensures |r.effects| >= 3 && r.effects[0] == order && r.effects[|r.effects| - 1].Alert?
    ensures reply.body.value.newBalance.Some? ==> CountFetches(r.effects, IsBalanceRoute) == 0
    ensures reply.body.value.newBalance.None? ==>
      CountFetches(r.effects, IsBalanceRoute) == 1 && r.effects[1] == Fetch(BalanceRequest(envUrl, email))
    ensures Reports(r.effects) == (match Reported(reply, balance) case Some(v) => [v] case None => [])
    ensures Completes(reply, balance) ==>
      r.effects == SuccessTrace(order, reply.body.value.newBalance.None?, Reported(reply, balance), envUrl, email)
    ensures Completes(reply, balance) ==>
      RefreshedOnce(r, envUrl, email) && r.list == Catalog.FetchProducts(list, false, email, envUrl, refetch).state
    ensures !Completes(reply, balance) ==>
      && BalanceError(balance).Some?
      && r.effects == [order, Fetch(BalanceRequest(envUrl, email)), Alert(BalanceError(balance).value)]
      && CountFetches(r.effects, IsListingRoute) == 0
      && r.list == list
  {
    match reply.body.value.newBalance
    case Some(v) => WithNewBalance(list, envUrl, email, order, v, refetch)
    case None => WithBalanceFetch(list, envUrl, email, order, balance, refetch)
  }

  /** Counting through the leading order request. */
  lemma HeadCounts(order: Effect, rest: seq<Effect>)
    requires order.Fetch? && order.request.route == PurchasesRoute
    requires forall i :: 0 <= i < |rest| ==> rest[i].Fetch? ==> IsBalanceRoute(rest[i].request.route)
    ensures Reports([order] + rest) == Reports(rest)
    ensures CountFetches([order] + rest, IsBalanceRoute) == CountFetches(rest, IsBalanceRoute)
    ensures CountFetches([order] + rest, IsListingRoute) == 0
  {
    assert ([order] + rest)[1..] == rest;
    NoListing(rest);
  }

  lemma OneCounts(e: Effect)
    ensures CountFetches([e], IsBalanceRoute) == (if e.Fetch? && IsBalanceRoute(e.request.route) then 1 else 0)
    ensures Reports([e]) == (if e.ReportBalance? then [e.amount] else [])
  {
    assert [e][1..] == [];
  }

  lemma TwoCounts(a: Effect, b: Effect)
    ensures CountFetches([a, b], IsBalanceRoute) == CountFetches([a], IsBalanceRoute) + CountFetches([b], IsBalanceRoute)
    ensures Reports([a, b]) == Reports([a]) + Reports([b])
  {
    assert [a, b][1..] == [b];
    assert [a][1..] == [];
  }

  lemma {:induction false} NoListing(rest: seq<Effect>)
    requires forall i :: 0 <= i < |rest| ==> rest[i].Fetch? ==> IsBalanceRoute(rest[i].request.route)
    ensures CountFetches(rest, IsListingRoute) == 0
  {
    if rest != [] {
      NoListing(rest[1..]);
    }
  }

  /** A balance fetch that throws ends the run with its error alert. */
  lemma AbortCounts(order: Effect, ask: Effect, reason: string)
    requires order.Fetch? && order.request.route == PurchasesRoute
    requires ask.Fetch? && IsBalanceRoute(ask.request.route)
    ensures Reports([order, ask, Alert(reason)]) == []
    ensures CountFetches([order, ask, Alert(reason)], IsBalanceRoute) == 1
    ensures CountFetches([order, ask, Alert(reason)], IsListingRoute) == 0
  {
    HeadCounts(order, [ask, Alert(reason)]);
    TwoCounts(ask, Alert(reason));
    OneCounts(ask);
    OneCounts(Alert(reason));
    assert [order, ask, Alert(reason)] == [order] + [ask, Alert(reason)];
  }

  /** The two effects `Finish` adds: one listing fetch and no report. */
  lemma FinishCounts(r: Purchased, head: seq<Effect>)
    requires |r.effects| == |head| + 2 && r.effects[..|head|] == head
    requires r.effects[|head|].Fetch? && IsListingRoute(r.effects[|head|].request.route)
    requires r.effects[|head| + 1].Alert?
    ensures Reports(r.effects) == Reports(head)
    ensures Reports(r.effects[|head|..]) == []
    ensures CountFetches(r.effects, IsBalanceRoute) == CountFetches(head, IsBalanceRoute)
    ensures CountFetches(r.effects, IsListingRoute) == CountFetches(head, IsListingRoute) + 1
  {
    var tail := r.effects[|head|..];
    assert r.effects == head + tail;
    assert tail[1..][1..] == [];
    ReportsAppend(head, tail);
    CountAppend(head, tail, IsBalanceRoute);
    CountAppend(head, tail, IsListingRoute);
  }
}

=== FILE: session.dfy ===
/**
 * The top-level view (App): who is signed in, the view mode, the product
 * picked for support, and the cached balance; and which screen shows.
 */
module Session {
  import opened Wrappers
  import opened Types
  import opened Http
  import Text
  import Login
  import Catalog
  import Purchase

  datatype Session = Session(user: Option<User>, showPurchased: bool, selected: Option<Product>, balance: Option<Amount>)

  /** The `useState` initial values. */
  const Start := Session(None, false, None, None)

  /** The top-level balance fetch uses a fixed local address. */
  const BalanceBase := "http://localhost:3000"

  /** The user record built from the submitted e-mail. */
  function NewUser(email: string, role: Role): (u: User)
    ensures u.id == email && u.email == email && u.role == role
    ensures u.name <= email && '@' !in u.name
    ensures '@' in email ==> |u.name| < |email| && email[|u.name|] == '@'
    ensures '@' !in email ==> u.name == email
  {
    var name := Text.BeforeFirst(email, '@');
    assert '@' !in email ==> |name| == |email| by {
      if |name| < |email| { assert email[|name|] in email; }
    }
    User(email, email, name, role)
  }

  /** `handleLogin`: only the user slot is written. */
  function HandleLogin(s: Session, email: string, role: Role): (r: Session)
    ensures r.user == Some(NewUser(email, role))
    ensures r.showPurchased == s.showPurchased && r.selected == s.selected && r.balance == s.balance
  {
    s.(user := Some(NewUser(email, role)))
  }

  /** `handleLogout`: all four slots go back to their initial values, whatever they held. */
  function HandleLogout(s: Session): (r: Session)
    ensures r.user.None? && r.balance.None? && !r.showPurchased && r.selected.None?
  {
    Session(None, false, None, None)
  }

  /** `handlePurchaseComplete`: the balance takes exactly the reported value. */
  function PurchaseComplete(s: Session, v: Amount): (r: Session)
    ensures r.balance == Some(v)
    ensures r.(balance := s.balance) == s
  {
    s.(balance := Some(v))
  }

  predicate IsCustomer(s: Session) {
    s.user.Some? && s.user.value.role == Customer
  }

  datatype Refreshed = Refreshed(session: Session, effects: seq<Effect>)

  /** `fetchBalance`: only a signed-in customer asks, and only a readable ok
      reply is adopted; every failure leaves the balance as it was. */
  function FetchBalance(s: Session, reply: Reply<BalanceJson>): (r: Refreshed)
    ensures IsCustomer(s) ==> r.effects == [Fetch(Get(BalanceBase, CustomerBalanceRoute(s.user.value.email)))]
    ensures !IsCustomer(s) ==> r.effects == [] && r.session == s
    ensures r.session.(balance := s.balance) == s
    ensures r.session.balance != s.balance ==>
      IsCustomer(s) && reply.Response? && reply.ok && reply.body.Json? && r.session.balance == Some(reply.body.value.balance)
    ensures IsCustomer(s) && reply.Response? && reply.ok && reply.body.Json? ==> r.session.balance == Some(reply.body.value.balance)
  {
    if IsCustomer(s) then
      var effects := [Fetch(Get(BalanceBase, CustomerBalanceRoute(s.user.value.email)))];
      if reply.Response? && reply.ok && reply.body.Json? then
        Refreshed(s.(balance := Some(reply.body.value.balance)), effects)
      else Refreshed(s, effects)
    else Refreshed(s, [])
  }

  /** Submitting the login form: derive the role, store the user, then run
      the balance effect that a change of user triggers. */
  function SignIn(s: Session, email: string, reply: Reply<BalanceJson>): (r: Refreshed)
    ensures r.session.user == Some(NewUser(email, Login.RoleOf(email)))
    ensures Login.RoleOf(email) == Admin ==> r.effects == [] && r.session.balance == s.balance
    ensures Login.RoleOf(email) == Customer ==> r.effects == [Fetch(Get(BalanceBase, CustomerBalanceRoute(email)))]
  {
    var (e, role) := Login.Submit(email);
    FetchBalance(HandleLogin(s, e, role), reply)
  }

  /** Feeding the reported amounts to `handlePurchaseComplete` in order: the
      last one wins, and nothing but the balance changes. */
  function ApplyReports(s: Session, amounts: seq<Amount>): (r: Session)
    ensures amounts == [] ==> r == s
    ensures amounts != [] ==> r.balance == Some(amounts[|amounts| - 1])
    ensures r.(balance := s.balance) == s
    decreases |amounts|
  {
    if amounts == [] then s else ApplyReports(PurchaseComplete(s, amounts[0]), amounts[1..])
  }

  datatype Bought = Bought(session: Session, purchase: Purchase.Purchased)

  /** A purchase from the product list, with its balance reports applied to the
      session.  The list, and so the purchase button, is only shown to customers. */
  function Buy(s: Session, list: Catalog.ListState, envUrl: Option<string>, product: Product,
               reply: Reply<PurchaseJson>, balance: Reply<BalanceJson>, refetch: Catalog.Server): (r: Bought)
    requires IsCustomer(s)
    ensures r.session.(balance := s.balance) == s
    ensures !Purchase.Accepted(reply) ==> r.session == s
    ensures Purchase.Accepted(reply) ==>
      r.session.balance == (match Purchase.Reported(reply, balance) case Some(v) => Some(v) case None => s.balance)
  {
    var p := Purchase.HandlePurchase(list, envUrl, s.user.value.email, product, reply, balance, refetch);
    Bought(ApplyReports(s, Reports(p.effects)), p)
  }

  /** The screen the top-level view renders. */
  datatype Screen =
    | LoginScreen
    | AdminScreen(user: User)
    | CustomerScreen(user: User, showPurchased: bool, chatProduct: Option<Product>, shownBalance: Option<Amount>)

  function Render(s: Session): (v: Screen)
    ensures v.LoginScreen? <==> s.user.None?
    ensures v.AdminScreen? <==> s.user.Some? && s.user.value.role == Admin
    ensures v.CustomerScreen? <==> IsCustomer(s)
    ensures !v.LoginScreen? ==> v.user == s.user.value
    ensures v.CustomerScreen? ==>
      v.showPurchased == s.showPurchased && v.chatProduct == s.selected && v.shownBalance == s.balance
  {
    match s.user
    case None => LoginScreen
    case Some(u) =>
      if u.role == Admin then AdminScreen(u) else CustomerScreen(u, s.showPurchased, s.selected, s.balance)
  }

  /** A balance is on screen only for a customer whose balance is known. */
  lemma BalanceShownOnlyToCustomers(s: Session)
    ensures (Render(s).CustomerScreen? && Render(s).shownBalance.Some?) <==> (IsCustomer(s) && s.balance.Some?)
  {
  }

  /** After logging out, whatever the session held, the login screen shows and
      the next sign-in starts from a clean slate. */
  lemma LogoutThenSignIn(s: Session, email: string, reply: Reply<BalanceJson>)
    ensures Render(HandleLogout(s)) == LoginScreen
    ensures var r := SignIn(HandleLogout(s), email, reply).session;
      !r.showPurchased && r.selected.None? && (Login.RoleOf(email) == Admin ==> r.balance.None?)
  {
  }

  /** The display name of the sample administrator. */
  lemma AdminNameExample()
    ensures NewUser("admin@example.com", Admin).name == "admin"
  {
    var email := "admin@example.com";
    Text.BeforeFirstAt(email, '@', 5);
    assert email[..5] == "admin";
  }

  /** The sample administrator lands on the dashboard, with no balance request. */
  lemma AdminSignInExample(reply: Reply<BalanceJson>)
    ensures var r := SignIn(Start, "admin@example.com", reply);
      r.effects == [] && Render(r.session) == AdminScreen(NewUser("admin@example.com", Admin))
  {
  }
}

=== FILE: text.dfy ===
/**
 * The JavaScript string operations the client relies on, over `seq<char>`:
 * `includes`, `trim`, `toLowerCase` (as far as it matters here),
 * `split(sep)[0]` and the decimal rendering of a natural number.
 */
module Text {

  /** `sub` occurs in `s` starting at index `i`: the reference meaning of "contains". */
  ghost predicate OccursAt(s: string, sub: string, i: int) {
    0 <= i && i + |sub| <= |s| && s[i..i + |sub|] == sub
  }

  /** `String.prototype.includes`: try every start position from the left. */
  predicate Includes(s: string, sub: string)
    decreases |s|
  {
    sub <= s || (|s| > 0 && Includes(s[1..], sub))
  }

  lemma {:induction false} IncludesIffOccurs(s: string, sub: string)
    ensures Includes(s, sub) <==> exists i :: OccursAt(s, sub, i)
    decreases |s|
  {
    if sub <= s {
      assert OccursAt(s, sub, 0);
    } else if |s| > 0 {
      IncludesIffOccurs(s[1..], sub);
      if Includes(s[1..], sub) {
        var j :| OccursAt(s[1..], sub, j);
        assert s[1..][j..j + |sub|] == s[j + 1..j + 1 + |sub|];
        assert OccursAt(s, sub, j + 1);
      }
      forall i | OccursAt(s, sub, i)
        ensures Includes(s[1..], sub)
      {
        if i > 0 {
          assert s[1..][i - 1..i - 1 + |sub|] == s[i..i + |sub|];
          assert OccursAt(s[1..], sub, i - 1);
        }
      }
    }
  }

  /** WhiteSpace and LineTerminator code points of ECMAScript, which `trim` removes. */
  predicate IsWhiteSpace(c: char) {
    || c in {'\t', '\n', '\U{000B}', '\U{000C}', '\r', ' ', '\U{00A0}', '\U{1680}'}
    || ('\U{2000}' <= c <= '\U{200A}')
    || c in {'\U{2028}', '\U{2029}', '\U{202F}', '\U{205F}', '\U{3000}', '\U{FEFF}'}
  }

  ghost predicate IsBlank(s: string) {
    forall i :: 0 <= i < |s| ==> IsWhiteSpace(s[i])
  }

  lemma BlankAppend(a: string, b: string)
    requires IsBlank(a) && IsBlank(b)
    ensures IsBlank(a + b)
  {
    forall i | 0 <= i < |a + b|
      ensures IsWhiteSpace((a + b)[i])
    {
      if i < |a| {
        assert (a + b)[i] == a[i];
      } else {
        assert (a + b)[i] == b[i - |a|];
      }
    }
  }

  /** `trimStart`: drops the longest all-white-space prefix. */
  function TrimStart(s: string): (r: string)
    ensures |r| <= |s| && r == s[|s| - |r|..]
    ensures IsBlank(s[..|s| - |r|])
    ensures r == [] || !IsWhiteSpace(r[0])
    decreases |s|
  {
    if |s| > 0 && IsWhiteSpace(s[0]) then
      var r := TrimStart(s[1..]);
      assert s[..|s| - |r|] == [s[0]] + s[1..][..|s[1..]| - |r|];
      BlankAppend([s[0]], s[1..][..|s[1..]| - |r|]);
      r
    else s
  }

  /** `trimEnd`: drops the longest all-white-space suffix. */
  function TrimEnd(s: string): (r: string)
    ensures r <= s
    ensures IsBlank(s[|r|..])
    ensures r == [] || !IsWhiteSpace(r[|r| - 1])
    decreases |s|
  {
    if |s| > 0 && IsWhiteSpace(s[|s| - 1]) then
      var r := TrimEnd(s[..|s| - 1]);
      assert s[|r|..] == s[..|s| - 1][|r|..] + [s[|s| - 1]];
      BlankAppend(s[..|s| - 1][|r|..], [s[|s| - 1]]);
      r
    else s
  }

  /** `String.prototype.trim`. */
  function Trim(s: string): string {
    TrimEnd(TrimStart(s))
  }

  /** `!s.trim()` holds exactly when every character of `s` is white space. */
  lemma TrimEmptyIffBlank(s: string)
    ensures Trim(s) == [] <==> IsBlank(s)
  {
  }

  /** ASCII case folding; the only part of `toLowerCase` that can matter for
      an all-ASCII search phrase without the letters `i` and `k`. */
  function LowerChar(c: char): char {
    if 'A' <= c <= 'Z' then (c as int + 32) as char else c
  }

  function Lower(s: string): (r: string)
    ensures |r| == |s|
    ensures forall i :: 0 <= i < |s| ==> r[i] == LowerChar(s[i])
  {
    seq(|s|, i requires 0 <= i < |s| => LowerChar(s[i]))
  }

  /** No capital letter is left, and every other character is kept. */
  lemma LowerFolds(s: string)
    ensures forall i :: 0 <= i < |s| ==> !('A' <= Lower(s)[i] <= 'Z')
    ensures forall i :: 0 <= i < |s| ==> (Lower(s)[i] == s[i] <==> !('A' <= s[i] <= 'Z'))
  {
  }

  /** Text without capital letters is its own folding. */
  lemma LowerIdentity(s: string)
    requires forall k :: 0 <= k < |s| ==> !('A' <= s[k] <= 'Z')
    ensures Lower(s) == s
  {
  }

  /** The middle piece of a concatenation occurs right after the first piece. */
  lemma OccursInMiddle(a: string, b: string, c: string)
    ensures OccursAt(a + b + c, b, |a|)
  {
  }

  /** Folding distributes over concatenation. */
  lemma LowerAppend(a: string, b: string)
    ensures Lower(a + b) == Lower(a) + Lower(b)
  {
  }

  /** `s.split(sep)[0]`: everything before the first `sep`, or all of `s`. */
  function BeforeFirst(s: string, sep: char): (r: string)
    ensures r <= s
    ensures sep !in r
    ensures |r| < |s| ==> s[|r|] == sep
    decreases |s|
  {
    if s == [] || s[0] == sep then [] else [s[0]] + BeforeFirst(s[1..], sep)
  }

  /** When the first `sep` is at `k`, the part before it is `s[..k]`. */
  lemma BeforeFirstAt(s: string, sep: char, k: nat)
    requires k < |s| && s[k] == sep
    requires forall i :: 0 <= i < k ==> s[i] != sep
    ensures BeforeFirst(s, sep) == s[..k]
  {
  }

  function DigitChar(d: nat): char
    requires d < 10
  {
    ('0' as int + d) as char
  }

  predicate IsDigit(c: char) {
    '0' <= c <= '9'
  }

  function DigitValue(c: char): (d: nat)
    requires IsDigit(c)
    ensures d < 10
  {
    c as int - '0' as int
  }

  /** The decimal text of a natural number, as a template literal renders it. */
  function Decimal(n: nat): (r: string)
    ensures |r| >= 1
    ensures forall i :: 0 <= i < |r| ==> IsDigit(r[i])
    ensures r[0] == '0' ==> n == 0
    decreases n
  {
    if n < 10 then [DigitChar(n)] else Decimal(n / 10) + [DigitChar(n % 10)]
  }

  /** Reading decimal digits back: the partner of `Decimal`. */
  function DecimalValue(s: string): nat
    requires forall i :: 0 <= i < |s| ==> IsDigit(s[i])
  {
    if s == [] then 0 else DecimalValue(s[..|s| - 1]) * 10 + DigitValue(s[|s| - 1])
  }

  lemma {:induction false} DecimalRoundTrip(n: nat)
    ensures DecimalValue(Decimal(n)) == n
    decreases n
  {
    if n >= 10 {
      DecimalRoundTrip(n / 10);
      var r := Decimal(n);
      assert r[..|r| - 1] == Decimal(n / 10);
    }
  }
}

=== FILE: types.dfy ===
/** The records the client exchanges with the backend and keeps in memory. */
module Types {
  import opened Wrappers

  /** A price or balance as the backend sends it.  The client never does
      arithmetic on these, so the value stays opaque. */
  datatype Amount = Amount(literal: string)

  datatype Product = Product(
    id: string,
    name: string,
    price: string,
    description: string,
    region: string,
    createdAt: string,
    updatedAt: string)

  /** One row of a customer's purchase history; `product` is the embedded,
      possibly absent, `Product` field. */
  datatype PurchaseRecord = PurchaseRecord(
    id: string,
    productId: string,
    customerId: string,
    quantity: int,
    totalPrice: string,
    createdAt: string,
    updatedAt: string,
    product: Option<Product>)

  datatype Role = Admin | Customer

  datatype User = User(id: string, email: string, name: string, role: Role)

  datatype Sender = FromUser | FromBot

  /** A chat line; the generated id and the timestamp are left out. */
  datatype ChatMessage = ChatMessage(text: string, sender: Sender, options: Option<seq<string>>)
}

=== FILE: uri.dfy ===
/**
 * `encodeURIComponent`, used to place the customer's e-mail in the purchase
 * history path, together with a decoder that undoes it.  Characters are
 * Unicode scalar values, so the lone-surrogate `URIError` of JavaScript
 * cannot arise.
 */
module Uri {
  import opened Wrappers

  type byte = b: int | 0 <= b < 256

  /** The characters `encodeURIComponent` leaves as they are. */
  predicate Unreserved(c: char) {
    || ('A' <= c <= 'Z') || ('a' <= c <= 'z') || ('0' <= c <= '9')
    || c in "-_.!~*'()"
  }

  /** UTF-8 encoding of one scalar value. */
  function Utf8(c: char): (bs: seq<byte>)
    ensures 1 <= |bs| <= 4
  {
    var cp := c as int;
    if cp < 0x80 then [cp]
    else if cp < 0x800 then [0xC0 + cp / 64, 0x80 + cp % 64]
    else if cp < 0x10000 then [0xE0 + cp / 4096, 0x80 + (cp / 64) % 64, 0x80 + cp % 64]
    else [0xF0 + cp / 262144, 0x80 + (cp / 4096) % 64, 0x80 + (cp / 64) % 64, 0x80 + cp % 64]
  }

  /** Upper-case hexadecimal digit. */
  function HexDigit(d: nat): char
    requires d < 16
  {
    if d < 10 then ('0' as int + d) as char else ('A' as int + d - 10) as char
  }

  function HexValue(c: char): Option<nat> {
    if '0' <= c <= '9' then Some(c as int - '0' as int)
    else if 'A' <= c <= 'F' then Some(c as int - 'A' as int + 10)
    else if 'a' <= c <= 'f' then Some(c as int - 'a' as int + 10)
    else None
  }

  /** `%XY` for one byte. */
  function Escape(b: byte): string {
    ['%', HexDigit(b / 16), HexDigit(b % 16)]
  }

  function EscapeAll(bs: seq<byte>): (r: string)
    ensures |r| == 3 * |bs|
  {
    if bs == [] then [] else Escape(bs[0]) + EscapeAll(bs[1..])
  }

  function EncodeChar(c: char): (r: string)
    ensures r != []
  {
    if Unreserved(c) then [c] else EscapeAll(Utf8(c))
  }

  function EncodeUriComponent(s: string): (r: string)
    ensures forall i :: 0 <= i < |r| ==> r[i] != '/' && r[i] != '?' && r[i] != '#'
  {
    if s == [] then [] else
      var head, tail := EncodeChar(s[0]), EncodeUriComponent(s[1..]);
      EscapeAllSafe(Utf8(s[0]));
      assert forall i :: 0 <= i < |head| ==> head[i] != '/' && head[i] != '?' && head[i] != '#';
      head + tail
  }

  lemma {:induction false} EscapeAllSafe(bs: seq<byte>)
    ensures forall i :: 0 <= i < |EscapeAll(bs)| ==> IsPercentOrHex(EscapeAll(bs)[i])
  {
    if bs != [] {
      EscapeAllSafe(bs[1..]);
      var e := Escape(bs[0]);
      assert forall i :: 0 <= i < 3 ==> IsPercentOrHex(e[i]);
      assert EscapeAll(bs) == e + EscapeAll(bs[1..]);
    }
  }

  predicate IsPercentOrHex(c: char) {
    c == '%' || ('0' <= c <= '9') || ('A' <= c <= 'F')
  }

  // ---- decoding -------------------------------------------------------------

  /** The byte written as `%XY` at position `k` of `s`. */
  function ReadByte(s: string, k: nat): Option<byte> {
    if k + 3 <= |s| && s[k] == '%' then
      var hi :- HexValue(s[k + 1]);
      var lo :- HexValue(s[k + 2]);
      if hi < 16 && lo < 16 then Some(hi * 16 + lo) else None
    else None
  }

  /** A UTF-8 continuation byte at position `k`, as its six payload bits. */
  function ReadContinuation(s: string, k: nat): Option<int> {
    var b :- ReadByte(s, k);
    if 0x80 <= b < 0xC0 then Some(b - 0x80) else None
  }

  predicate IsScalar(cp: int) {
    (0 <= cp < 0xD800) || (0xE000 <= cp < 0x110000)
  }

  function ToChar(cp: int, width: nat): Option<(char, nat)> {
    if IsScalar(cp) then Some((cp as char, width)) else None
  }

  /** The first character of an encoded string and how many characters its
      encoding takes. */
  function ReadChar(s: string): (r: Option<(char, nat)>)
    requires |s| > 0
    ensures r.Some? ==> 0 < r.value.1 <= |s|
  {
    if s[0] != '%' then Some((s[0], 1))
    else
      var b0 :- ReadByte(s, 0);
      if b0 < 0x80 then ToChar(b0, 3)
      else if 0xC0 <= b0 < 0xE0 then
        var x1 :- ReadContinuation(s, 3);
        ToChar((b0 - 0xC0) * 64 + x1, 6)
      else if 0xE0 <= b0 < 0xF0 then
        var x1 :- ReadContinuation(s, 3);
        var x2 :- ReadContinuation(s, 6);
        ToChar((b0 - 0xE0) * 4096 + x1 * 64 + x2, 9)
      else if 0xF0 <= b0 < 0xF8 then
        var x1 :- ReadContinuation(s, 3);
        var x2 :- ReadContinuation(s, 6);
        var x3 :- ReadContinuation(s, 9);
        ToChar((b0 - 0xF0) * 262144 + x1 * 4096 + x2 * 64 + x3, 12)
      else None
  }

  /** `decodeURIComponent` for well-formed input; `None` where it would throw. */
  function DecodeUriComponent(s: string): Option<string>
    decreases |s|
  {
    if s == [] then Some([])
    else
      var (c, n) :- ReadChar(s);
      var rest :- DecodeUriComponent(s[n..]);
      Some([c] + rest)
  }

  lemma ReadEscape(s: string, k: nat, b: byte)
    requires k + 3 <= |s| && s[k..k + 3] == Escape(b)
    ensures ReadByte(s, k) == Some(b)
  {
  }

  /** A window of `a + b` that starts past `a` lies in `b`. */
  lemma WindowInTail(a: string, b: string, k: nat, n: nat)
    requires |a| <= k && k + n <= |a| + |b|
    ensures (a + b)[k..k + n] == b[k - |a|..k - |a| + n]
  {
  }

  lemma EscapeAllAt(bs: seq<byte>, j: nat)
    requires j < |bs|
    ensures EscapeAll(bs)[3 * j..3 * j + 3] == Escape(bs[j])
  {
    var head, tail := Escape(bs[0]), EscapeAll(bs[1..]);
    assert EscapeAll(bs) == head + tail;
    if j == 0 {
      assert (head + tail)[..3] == head;
    } else {
      EscapeAllAt(bs[1..], j - 1);
      WindowInTail(head, tail, 3 * j, 3);
    }
  }

  /** Byte `j` of an escaped run followed by anything reads back as that byte. */
  lemma ReadEscapedByte(bs: seq<byte>, rest: string, j: nat)
    requires j < |bs|
    ensures ReadByte(EscapeAll(bs) + rest, 3 * j) == Some(bs[j])
  {
    var e := EscapeAll(bs);
    var s := e + rest;
    var k := 3 * j;
    assert k + 3 <= |e|;
    EscapeAllAt(bs, j);
    assert s[k] == e[k] && s[k + 1] == e[k + 1] && s[k + 2] == e[k + 2];
    assert s[k..k + 3] == e[k..k + 3];
    ReadEscape(s, k, bs[j]);
  }

  lemma Split2(cp: int)
    requires 0 <= cp
    ensures (cp / 64) * 64 + cp % 64 == cp
  {
  }

  lemma Split3(cp: int)
    requires 0 <= cp
    ensures (cp / 4096) * 4096 + ((cp / 64) % 64) * 64 + cp % 64 == cp
  {
  }

  lemma Split4(cp: int)
    requires 0 <= cp
    ensures (cp / 262144) * 262144 + ((cp / 4096) % 64) * 4096 + ((cp / 64) % 64) * 64 + cp % 64 == cp
  {
    var q := cp / 64;
    var q2 := q / 64;
    assert q2 == cp / 4096;
    assert q2 / 64 == cp / 262144;
    assert q == q2 * 64 + q % 64;
    assert q2 == (q2 / 64) * 64 + q2 % 64;
  }

  /** Reading the encoding of `c` at the head of any string gives back `c`. */
  lemma ReadEncodedChar(c: char, rest: string)
    ensures ReadChar(EncodeChar(c) + rest) == Some((c, |EncodeChar(c)|))
  {
    if !Unreserved(c) {
      var cp := c as int;
      if cp < 0x80 {
        ReadEscapedByte(Utf8(c), rest, 0);
      } else if cp < 0x800 {
        ReadTwo(c, rest);
      } else if cp < 0x10000 {
        ReadThree(c, rest);
      } else {
        ReadFour(c, rest);
      }
    }
  }

  /** How the decoder combines a lead byte with its continuations. */
  lemma ReadsTwo(s: string, b0: byte, x1: int)
    requires |s| > 0 && ReadByte(s, 0) == Some(b0) && 0xC0 <= b0 < 0xE0
    requires ReadContinuation(s, 3) == Some(x1)
    ensures ReadChar(s) == ToChar((b0 - 0xC0) * 64 + x1, 6)
  {
    assert s[0] == '%';
  }

  lemma ReadsThree(s: string, b0: byte, x1: int, x2: int)
    requires |s| > 0 && ReadByte(s, 0) == Some(b0) && 0xE0 <= b0 < 0xF0
    requires ReadContinuation(s, 3) == Some(x1) && ReadContinuation(s, 6) == Some(x2)
    ensures ReadChar(s) == ToChar((b0 - 0xE0) * 4096 + x1 * 64 + x2, 9)
  {
    assert s[0] == '%';
  }

  lemma ReadsFour(s: string, b0: byte, x1: int, x2: int, x3: int)
    requires |s| > 0 && ReadByte(s, 0) == Some(b0) && 0xF0 <= b0 < 0xF8
    requires ReadContinuation(s, 3) == Some(x1) && ReadContinuation(s, 6) == Some(x2)
    requires ReadContinuation(s, 9) == Some(x3)
    ensures ReadChar(s) == ToChar((b0 - 0xF0) * 262144 + x1 * 4096 + x2 * 64 + x3, 12)
  {
    assert s[0] == '%';
  }

  /** The bytes `Utf8` produces for each width, written out. */
  lemma Utf8Shape(c: char)
    ensures var cp := c as int;
      && (0x80 <= cp < 0x800 ==> Utf8(c) == [0xC0 + cp / 64, 0x80 + cp % 64])
      && (0x800 <= cp < 0x10000 ==> Utf8(c) == [0xE0 + cp / 4096, 0x80 + (cp / 64) % 64, 0x80 + cp % 64])
      && (0x10000 <= cp ==>
            Utf8(c) == [0xF0 + cp / 262144, 0x80 + (cp / 4096) % 64, 0x80 + (cp / 64) % 64, 0x80 + cp % 64])
  {
  }

  lemma ContinuationAt(s: string, k: nat, x: int)
    requires 0 <= x < 64 && ReadByte(s, k) == Some(0x80 + x)
    ensures ReadContinuation(s, k) == Some(x)
  {
  }

  /** The encoding of a non-ASCII character starts with a `%`, which is not unreserved. */
  lemma EscapedChar(c: char)
    requires 0x80 <= c as int
    ensures EncodeChar(c) == EscapeAll(Utf8(c))
  {
  }

  lemma ReadTwo(c: char, rest: string)
    requires 0x80 <= c as int < 0x800
    ensures ReadChar(EncodeChar(c) + rest) == Some((c, |EncodeChar(c)|))
  {
    var cp := c as int;
    var b0, x1 := 0xC0 + cp / 64, cp % 64;
    var bs := Utf8(c);
    Utf8Shape(c);
    assert bs == [b0, 0x80 + x1];
    EscapedChar(c);
    var s := EscapeAll(bs) + rest;
    ReadEscapedByte(bs, rest, 0);
    ReadEscapedByte(bs, rest, 1);
    ContinuationAt(s, 3, x1);
    ReadsTwo(s, b0, x1);
    Split2(cp);
  }

  lemma ReadThree(c: char, rest: string)
    requires 0x800 <= c as int < 0x10000
    ensures ReadChar(EncodeChar(c) + rest) == Some((c, |EncodeChar(c)|))
  {
    var cp := c as int;
    var b0, x1, x2 := 0xE0 + cp / 4096, (cp / 64) % 64, cp % 64;
    var bs := Utf8(c);
    Utf8Shape(c);
    assert bs == [b0, 0x80 + x1, 0x80 + x2];
    EscapedChar(c);
    var s := EscapeAll(bs) + rest;
    ReadEscapedByte(bs, rest, 0);
    ReadEscapedByte(bs, rest, 1);
    ReadEscapedByte(bs, rest, 2);
    ContinuationAt(s, 3, x1);
    ContinuationAt(s, 6, x2);
    ReadsThree(s, b0, x1, x2);
    Split3(cp);
  }

  lemma ReadFour(c: char, rest: string)
    requires 0x10000 <= c as int
    ensures ReadChar(EncodeChar(c) + rest) == Some((c, |EncodeChar(c)|))
  {
    var cp := c as int;
    var b0, x1, x2, x3 := 0xF0 + cp / 262144, (cp / 4096) % 64, (cp / 64) % 64, cp % 64;
    var bs := Utf8(c);
    Utf8Shape(c);
    assert bs == [b0, 0x80 + x1, 0x80 + x2, 0x80 + x3];
    EscapedChar(c);
    var s := EscapeAll(bs) + rest;
    ReadEscapedByte(bs, rest, 0);
    ReadEscapedByte(bs, rest, 1);
    ReadEscapedByte(bs, rest, 2);
    ReadEscapedByte(bs, rest, 3);
    ContinuationAt(s, 3, x1);
    ContinuationAt(s, 6, x2);
    ContinuationAt(s, 9, x3);
    ReadsFour(s, b0, x1, x2, x3);
    Split4(cp);
  }

  lemma EncodeCons(s: string)
    requires s != []
    ensures EncodeUriComponent(s) == EncodeChar(s[0]) + EncodeUriComponent(s[1..])
  {
  }

  /** One step of the decoder: a character read, then the remainder decoded. */
  lemma DecodeStep(head: string, tail: string, c: char, rest: string)
    requires head != [] && ReadChar(head + tail) == Some((c, |head|))
    requires DecodeUriComponent(tail) == Some(rest)
    ensures DecodeUriComponent(head + tail) == Some([c] + rest)
  {
    assert (head + tail)[|head|..] == tail;
  }

  /** Decoding undoes `encodeURIComponent`. */
  lemma {:induction false} DecodeEncode(s: string)
    ensures DecodeUriComponent(EncodeUriComponent(s)) == Some(s)
    decreases |s|
  {
    if s != [] {
      var head, tail := EncodeChar(s[0]), EncodeUriComponent(s[1..]);
      EncodeCons(s);
      ReadEncodedChar(s[0], tail);
      DecodeEncode(s[1..]);
      DecodeStep(head, tail, s[0], s[1..]);
      assert s == [s[0]] + s[1..];
    }
  }

  /** Distinct e-mails give distinct escaped paths. */
  lemma EncodeInjective(a: string, b: string)
    requires EncodeUriComponent(a) == EncodeUriComponent(b)
    ensures a == b
  {
    DecodeEncode(a);
    DecodeEncode(b);
  }
}

=== FILE: wrappers.dfy ===
/**
 * `Option` stands for the slots JavaScript fills with `null` or `undefined`:
 * an optional build setting, a missing field of a JSON body, an unset
 * balance.  The three members below let `:-` stop a decoder at the first
 * `None`.
 */
module Wrappers {

  datatype Option<+T> = None | Some(value: T) {

    /** `:-` stops here. */
    predicate IsFailure() {
      this == None
    }

    /** A stopped read has nothing to carry, whatever its type. */
    function PropagateFailure<U>(): Option<U>
      requires IsFailure()
    {
      None
    }

    /** The value `:-` binds when reading goes on. */
    function Extract(): T
      requires !IsFailure()
    {
      this.value
    }

    /** The value, or `fallback` when there is none (`x ?? fallback`). */
    function ValueOr(fallback: T): (r: T)
      ensures Some? ==> r == value
      ensures None? ==> r == fallback
    {
      if Some? then value else fallback
    }
  }
}
